=== FILE: README.md ===
# express-api-template: token handling and request gating, in Dafny

This project models the logic core of the Express REST API template. It covers:

- the token utilities: `generateToken` with its argument checks, `verifyToken`, `generateNewTokensIfExpired` and `validateObject`;
- the two middlewares: the `validateHTTPBody` gate and the `extractUserFromToken` access/refresh decision;
- the `/users` handlers: authenticate, update, delete, get-one, list options and create. They work on a model of the `users` collection.

Every operation is a pure function. The foreign libraries become parameters:

- jsonwebtoken is a `Jwt.Codec`, a pair of `sign`/`decode` function values. `Jwt.Sound` states the round trip a real key gives to a token verified before it expires: the caller's claims come back, and only `iat`/`exp` are added. Access tokens always carry `exp`. Refresh tokens carry none when the caller's claims carry none.
- bcrypt is `UserHandlers.Crypto`, a hash function and a compare function.
- Joi schemas are functions from a body to a `Utilities.SchemaVerdict`.
- `validator.isMongoId` is a predicate `string -> bool`.

JavaScript values are `Js.JsValue`, with JavaScript truthiness, `typeof`, and loose equality with `''`.

Middleware behaviour is a trace of `Http.Effect`s in the order the code issues them: `req.user = …`, `res.set`, `User.updateOne`, `next()`, or a sent response. `Http.EndsOnce` says that exactly one `next()` or one response is issued, and that it comes last.

The collection is a sequence of `Store.User` records in natural order. `findOne`, `updateOne`, `findOneAndUpdate` and `deleteOne` act on the first match.

- The `_id` index always makes a colliding write fail with a duplicate key, which the handlers' catch blocks answer with 500.
- The schema's unique `username` index exists only where mongoose built it, and server.js builds indexes only in development mode. So every write takes a flag `usernameIndex` saying whether that index is in force. Without the index, duplicate usernames are accepted, and a delete by username removes only the first holder.
- `Store.WellFormed` says the indexes in force hold, and every handler preserves it.

The model follows the code where it is odd:

- The token kinds are the strings `'accessToken'`/`'refreshToken'`.
- A missing type is reported before a badly shaped payload.
- `username == ''` is loose equality, so a `username` of `[]` or `['']` is rejected even though it is truthy.
- The renewal write sets the key `newRefreshToken`, not the schema's `refreshToken`.
- The renewal write filters on the refresh payload's `_id`, but login tokens carry `userId`. `UserHandlers.RenewalFilterMissesLoginTokens` proves that renewing a login-issued token filters on `{_id: undefined}`.
- The renewal write is recorded as issued, and is not applied to the store model.
- The update handler writes an empty password as given and hashes only a non-empty one.
- Get-one and update answer 200 with `user: null` when nothing matches.
- A refresh token whose payload already carries `exp` cannot be renewed. jsonwebtoken refuses to sign a payload that has `exp` when `expiresIn` is also given, so `generateNewTokensIfExpired` rejects on the access token. The rejection happens inside the middleware's catch block, which has no handler for it. Express 4 ignores a rejected middleware promise, so the request is neither passed on nor answered. The rejection then reaches Node as an unhandled rejection, and the server installs no handler for it. From Node 15 on, that ends the whole process; older versions print a warning and keep the request open. The model records this as the effect `Unhandled`. Every access token decodes with `exp`, so an access token sent as the refresh token triggers this (`Middlewares.AccessTokenAsRefreshUnhandled`).

## Model

| member | source | states |
|---|---|---|
| Js.UsableClaimCharacterization | nodejs/express-api-template/src/middlewares/index.js:82-84 | the `!u.username \|\| u.username == ''` test accepts exactly non-empty strings, non-zero numbers, `true`, objects, and arrays whose string form is non-empty |
| Js.LooseEmptyOnlyAddsArrays | nodejs/express-api-template/src/middlewares/index.js:82 | the loose `== ''` half of the username test only adds truthy arrays to what `!username` already rejects |
| NumberParsing.ParseIntOfNumeral | nodejs/express-api-template/src/http-handlers/user.js:177 | `parseInt` reads back `n` from the plain decimal numeral of any integer `n` followed by text `rest` that does not continue the numeral. That numeral is `String(n)` when `\|n\| < 10^21`; beyond that JavaScript writes exponent notation, which this lemma does not cover |
| NumberParsing.ParseIntOfPaddedNumeral | nodejs/express-api-template/src/http-handlers/user.js:177 | the same with leading white space |
| NumberParsing.LeadingWhitespaceIgnored | nodejs/express-api-template/src/http-handlers/user.js:177 | leading JavaScript white space never changes what `parseInt` reads |
| NumberParsing.UndefinedParsesToNaN | nodejs/express-api-template/src/http-handlers/user.js:170-177 | an absent `pageNum` parses to NaN |
| NumberParsing.MinusOneParses | nodejs/express-api-template/src/http-handlers/user.js:177 | `-1` with leading blanks and non-digit trailing text reads as -1 |
| NumberParsing.NatToDecimalSound | nodejs/express-api-template/src/http-handlers/user.js:177 | the decimal numeral of `m` is a run of digits that denotes `m` and starts with 0 only for 0 |
| NumberParsing.DigitPrefix | nodejs/express-api-template/src/http-handlers/user.js:177 | `parseInt` reads the longest prefix of digits of the radix, and stops at the first non-digit |
| NumberParsing.ParseInt | nodejs/express-api-template/src/http-handlers/user.js:177 | `parseInt` gives a number only for input that holds a decimal digit. The value itself is stated by the lemmas above, and only for decimal numerals: `ParseIntOfNumeral`, `ParseIntOfPaddedNumeral` and `MinusOneParses`. No contract gives the value of a hex numeral |
| Utilities.GenerateToken | nodejs/express-api-template/src/utilities/index.js:127-151 | a token is issued exactly for an object payload with kind `'accessToken'` and no `exp` of its own (signed with expiry), or with kind `'refreshToken'` (signed without). An access token for a payload that has `exp` is refused by the signing library. Otherwise the error follows the precedence: falsy payload, falsy type, non-object or array payload, non-string type, unknown type value |
| Utilities.FalsyPayloadReportedFirst | nodejs/express-api-template/src/utilities/index.js:128-130 | undefined, null, 0, '' and false as payload give PayloadNotSpecified whatever the type, including with no arguments at all |
| Utilities.MissingTypeBeforePayloadShape | nodejs/express-api-template/tests/utilities/generateToken.unit.test.js:32-66 | `([], undefined)` is TypeNotSpecified, `([], 'accessToken')` is PayloadInvalidDataType, `({}, 10)` is TypeInvalidDataType, and an unknown string is TypeInvalidValue |
| Utilities.AccessTokenRoundTrip | nodejs/express-api-template/src/utilities/index.js:144-145 | with a sound codec an access token is issued exactly when the payload has no `exp`, and it verifies to every payload claim plus a numeric `exp` |
| Utilities.RefreshTokenRoundTrip | nodejs/express-api-template/src/utilities/index.js:146-147 | with a sound codec a refresh token verifies to every payload claim, and to no `exp` when the claims carry none |
| Utilities.VerifyToken | nodejs/express-api-template/src/utilities/index.js:80-96 | total: null for a missing, empty or undecodable token, otherwise the decoded claims |
| Utilities.GenerateNewTokensIfExpired | nodejs/express-api-template/src/utilities/index.js:165-170 | a falsy payload is rejected with its own error. A non-object payload fails as `generateToken` does, and so does an object with `exp`, on the access token. Any other object yields the pair signed from the same claims, refresh without expiry and access with it |
| Utilities.RenewalRoundTrip | nodejs/express-api-template/tests/utilities/generateNewTokensIfExpired.unit.test.js:17-36 | renewal succeeds exactly for claims without `exp`. Both renewed tokens are then the ones `generateToken` issues, and they verify back to the payload's claims, access with `exp` and refresh without |
| Utilities.AccessTokenPayloadNotRenewable | nodejs/express-api-template/src/utilities/index.js:144-145 | with a sound codec, the claims of any access token make renewal fail with the `expiresIn`/`exp` conflict |
| Utilities.Messages | nodejs/express-api-template/src/utilities/index.js:66 | one message per error detail, in detail order |
| Utilities.ValidateObject | nodejs/express-api-template/src/utilities/index.js:63-70 | no schema error gives `[]`. A schema error gives exactly its details' messages, in order |
| Utilities.ValidateObjectEmptyIff | nodejs/express-api-template/src/utilities/index.js:63-70 | the list is empty exactly when the schema reports no error detail |
| Middlewares.ValidateHTTPBody | nodejs/express-api-template/src/middlewares/index.js:33-48 | exactly one hand-off. `next()` alone exactly when there is no error detail. Otherwise a single 400 response whose `error` lists every detail message in order |
| Middlewares.IndexOf | nodejs/express-api-template/src/middlewares/index.js:92-93 | `indexOf` is -1 exactly for a path not on the list, otherwise the first position holding it |
| Middlewares.AccessIdentity | nodejs/express-api-template/src/middlewares/index.js:72-87 | the try block yields only the claims a present, non-empty access token decodes to, with a usable `username`. When it yields nothing, the access token is rejected |
| Middlewares.ExtractUserFromToken | nodejs/express-api-template/src/middlewares/index.js:67-134 | the request ends in exactly one `next()` or one response, as the last effect, except exactly when the access token is rejected and the refresh token decodes off the allow-list to a payload with `exp`. Then the only effect is the unhandled rejection |
| Middlewares.RecoverFromRejectedAccess | nodejs/express-api-template/src/middlewares/index.js:88-131 | the catch path ends in exactly one hand-off unless renewal is refused. A refused renewal gives the unhandled rejection alone |
| Middlewares.AccessIdentityCharacterization | nodejs/express-api-template/src/middlewares/index.js:72-87 | the try block yields an identity exactly when the access token is present, non-empty, decodes, and has a usable `username` |
| Middlewares.ValidAccessPasses | nodejs/express-api-template/src/middlewares/index.js:72-87 | an accepted access token sets `req.user` to its claims and calls `next()`, on any path and whatever the refresh token |
| Middlewares.AllowListedBypass | nodejs/express-api-template/src/middlewares/index.js:90-95 | a rejected access token on an allow-listed path gives `next()` alone, whatever the refresh token |
| Middlewares.MissingRefreshRejected | nodejs/express-api-template/src/middlewares/index.js:97-104 | off the allow-list, an absent or empty refresh token gives `req.user = null` and 401 'ERROR: Refresh token not found' |
| Middlewares.InvalidRefreshRejected | nodejs/express-api-template/src/middlewares/index.js:106-114 | off the allow-list, an undecodable refresh token gives a 401 'ERROR: Invalid refresh token' response and nothing else |
| Middlewares.RefreshRotates | nodejs/express-api-template/src/middlewares/index.js:116-133 | a decodable refresh token whose payload has no `exp` gives the update `{newRefreshToken}` by `_id`, then the expose header, both new token headers, `req.user` set to the refresh payload, and `next()` |
| Middlewares.RotatedHeadersVerify | nodejs/express-api-template/src/middlewares/index.js:116-127 | with a sound codec the rotated headers verify to the refresh payload's claims, access with `exp` and refresh without |
| Middlewares.ExpiringRefreshUnhandled | nodejs/express-api-template/src/middlewares/index.js:116-119 | off the allow-list, a decodable refresh token whose payload has `exp` makes renewal reject inside the catch block. Nothing is written or sent, and the request is never handed off |
| Middlewares.AccessTokenAsRefreshUnhandled | nodejs/express-api-template/src/middlewares/index.js:116-119 | with a sound codec, an access token sent as the refresh token on a protected path leaves the request without `next()` or a response |
| Middlewares.RenewalWritesNewRefreshTokenKey | nodejs/express-api-template/src/middlewares/index.js:122 | every store update the middleware issues sets only `newRefreshToken`, never `refreshToken`, and filters only on `_id` |
| Middlewares.HeadersOnlyOnRotation | nodejs/express-api-template/src/middlewares/index.js:124-127 | response headers are set only alongside the renewal write, on a request that is passed on |
| Store.FindFirst | nodejs/express-api-template/src/http-handlers/user.js:28 | `findOne` finds the first matching record, or reports that none matches |
| Store.Apply | nodejs/express-api-template/src/http-handlers/user.js:103 | the updated record keeps its `_id` and `createdAt`, takes every field the update sets, and keeps every other field. An empty update changes nothing |
| Store.UpdateOne | nodejs/express-api-template/src/http-handlers/user.js:103 | `updateOne` changes only the first match, by applying the update, and keeps every other record. No match changes nothing. The write is refused exactly when the username index is in force and the write would give the match a username another record holds |
| Store.DeleteOne | nodejs/express-api-template/src/http-handlers/user.js:130 | `deleteOne` removes only the first match and keeps the rest in order |
| Store.InsertOne | nodejs/express-api-template/src/http-handlers/user.js:211 | `create` appends the record exactly when its `_id` is free and, under the username index, its username is free too |
| Store.UpdateOnePreservesWellFormed | nodejs/express-api-template/src/models/user.js:16-20 | an update keeps `_id` unique, and also `username` while its index is in force |
| Store.DeleteOnePreservesWellFormed | nodejs/express-api-template/src/http-handlers/user.js:127-130 | a delete keeps the indexed fields unique. It leaves no record matching an `_id` filter, nor a `username` filter while that index is in force |
| Store.DeleteByUsernameLeavesDuplicate | nodejs/express-api-template/src/http-handlers/user.js:127-130 | without the username index, deleting by a username that two records share leaves the second one matching |
| Store.InsertOnePreservesWellFormed | nodejs/express-api-template/src/models/user.js:16-20 | an insertion keeps `_id` unique, and also `username` while its index is in force |
| UserHandlers.FindOneJson | nodejs/express-api-template/src/http-handlers/user.js:156 | the read-back user is null exactly when no record matches |
| UserHandlers.UserJson | nodejs/express-api-template/src/http-handlers/user.js:105-108 | the projected document holds exactly the projected fields the record has, `lastname` only when set, each with the record's value |
| UserHandlers.LoginClaims | nodejs/express-api-template/src/http-handlers/user.js:42-48 | login tokens carry exactly `userId, role, username, firstname, lastname`, each with the stored user's value: `lastname` is `undefined` when the user has none |
| UserHandlers.Login | nodejs/express-api-template/src/http-handlers/user.js:26-58 | an unknown user gives 401 'user does not exists' and a wrong password gives 401 'failed to authenticate', both with the store unchanged. Success gives 200 with both tokens signed from the login claims, and the refresh token written to the user found by `_id` |
| UserHandlers.AuthenticateRoute | nodejs/express-api-template/src/http-handlers/user.js:17-25 | a body the schema rejects gives 400 and never reaches the login logic |
| UserHandlers.LoginFailureIssuesNothing | nodejs/express-api-template/src/http-handlers/user.js:28-40 | a failed login is 401 with no token in the body and no write |
| UserHandlers.LoginWritesOnlyRefreshToken | nodejs/express-api-template/src/http-handlers/user.js:42-58 | when ids are unique, a successful login changes only that user's `refreshToken`, to the token it answers with |
| UserHandlers.LoginTokensVerify | nodejs/express-api-template/src/http-handlers/user.js:49-50 | with a sound codec the login tokens verify back to the login claims |
| UserHandlers.RenewalFilterMissesLoginTokens | nodejs/express-api-template/src/middlewares/index.js:122 | renewing a refresh token issued at login writes with the filter `{_id: undefined}` |
| UserHandlers.RenewalFilterOfClaims | nodejs/express-api-template/src/middlewares/index.js:122 | renewal from claims without `_id` filters on `_id: undefined` |
| UserHandlers.Resolve | nodejs/express-api-template/src/http-handlers/user.js:99-101 | the identifier is an `_id` filter exactly when it is an ObjectId, and a `username` filter otherwise |
| UserHandlers.NewUserData | nodejs/express-api-template/src/http-handlers/user.js:90-97 | the update copies the body. A non-empty password is replaced by its hash and an empty one is kept. The update never touches `refreshToken` |
| UserHandlers.UpdateUser | nodejs/express-api-template/src/http-handlers/user.js:69-108 | validation errors give 400 with the list, and an empty identifier gives 400. Otherwise the answer is 200 exactly when `updateOne` accepts the merged body, and 500 with the store unchanged when it refuses. A 200 answer carries the write and the read-back by the same filter |
| UserHandlers.PatchedPassword | nodejs/express-api-template/src/http-handlers/user.js:92-96 | the patched record's password is the hash of a non-empty new password, '' for an empty one, and unchanged when none is given |
| UserHandlers.UpdatePasswordRule | nodejs/express-api-template/src/http-handlers/user.js:90-103 | a valid body for an existing record that the collection accepts gives 200. The matched record's password is then the hash of a non-empty new password, '' for an empty one, and unchanged when none is given. Every other record is unchanged |
| UserHandlers.UpdateValidationFirst | nodejs/express-api-template/src/http-handlers/user.js:78-81 | a body with validation errors gives 400 and leaves the store unchanged, whatever the identifier |
| UserHandlers.DeleteUser | nodejs/express-api-template/src/http-handlers/user.js:118-132 | an empty identifier gives 400. Otherwise the answer is 200 `{result: 'ok'}` whether or not a record matched. The store shrinks by one exactly when one matched, and it never gains a record |
| UserHandlers.DeleteRemovesTarget | nodejs/express-api-template/src/http-handlers/user.js:127-130 | a delete keeps the indexed fields unique. Afterwards no record matches an ObjectId identifier, nor a username while its index is in force |
| UserHandlers.GetOneUser | nodejs/express-api-template/src/http-handlers/user.js:142-158 | read-only. An empty identifier gives 400. Otherwise the answer is 200, with `user` null exactly when nothing matches |
| UserHandlers.SameIdentifierSameRecord | nodejs/express-api-template/src/http-handlers/user.js:152-154 | get-one, delete and update act on the same record for the same identifier |
| UserHandlers.ListOptions | nodejs/express-api-template/src/http-handlers/user.js:172-178 | limit 10, page `pageNum \|\| 1`, sort by `createdAt` descending, the public projection, and pagination off exactly when `parseInt(pageNum) === -1` |
| UserHandlers.ListOptionsExamples | nodejs/express-api-template/src/http-handlers/user.js:174-177 | `'-1'` turns pagination off. An absent parameter keeps it on with page 1 |
| UserHandlers.CreateUser | nodejs/express-api-template/src/http-handlers/user.js:204-213 | the answer is 200 exactly when the collection accepts the record built from the body, the new `_id` and the time. That record has the hashed password and an empty `refreshToken`, and it is appended and echoed back. Otherwise 500 with the store unchanged |
| UserHandlers.CreateRoute | nodejs/express-api-template/src/http-handlers/user.js:191-202 | a body the schema rejects gives 400 and never reaches the store |
| UserHandlers.LoginPreservesWellFormed | nodejs/express-api-template/src/http-handlers/user.js:52 | login keeps `_id` unique, and also `username` while its index is in force |
| UserHandlers.UpdatePreservesWellFormed | nodejs/express-api-template/src/http-handlers/user.js:103 | update keeps `_id` unique, and also `username` while its index is in force |
| UserHandlers.CreatePreservesWellFormed | nodejs/express-api-template/src/http-handlers/user.js:211 | create keeps `_id` unique, and also `username` while its index is in force |

## Left out

- `uploadToAWSS3` and `handleFileUpload`: S3, filesystem I/O and multer.
- `server.js`: environment loading, the database connection, CORS/morgan/body-parser wiring and `listen`.
- jsonwebtoken's cryptography and clock. `exp` is modelled only as present or absent. `decode` never rejects a token that `sign` issued, so expiry is not modelled (see `Jwt.Sound` below).
- jsonwebtoken's own checks are modelled only for the `expiresIn`/`exp` conflict. Its type checks on `iat`, `exp` and `nbf` claims and its option validation are not.
- A token whose payload is a string rather than an object is not modelled. `decode` returns claim maps only, so `verifyToken`'s `!extractedData` test never fires.
- `User.updateOne` rejecting inside the middleware's catch block is not modelled, for example on a lost connection. The renewal write is recorded and never fails.
- JSON serialisation is not modelled. An absent `lastname` is the claim value `undefined` and is not dropped from the payload.
- bcrypt hashing and salting, Joi's schema engine, and `validator.isMongoId` are parameters. In particular Joi's rejection of empty strings is part of the abstract schema.
- mongoose strict mode is not modelled. The schema has no `role` field but records keep the `role` the handlers write. The `newRefreshToken` update is recorded as issued and never applied.
- `User.paginate` itself is not modelled: its page slicing, counting and response fields. Only the options the handler passes are.
- The `updatedAt` timestamp and mongoose's version key `__v` are not modelled. The first depends on the clock, and the second is bookkeeping that the handlers never read. Both appear in the document `User.create` echoes back, and `updatedAt` also appears in the update read-back. `createdAt` and the new `_id` are parameters of `CreateUser`.
- The catch-all 500 paths are modelled only where the model has a cause for them: a duplicate key on create or update. Other thrown errors are not modelled.
- Concurrent requests racing on the same record are not modelled.
- The `dataStatus` constants are not modelled because no code uses them. The `httpStatus` constants appear only as literal status codes.
- Query parameters other than a single string, such as the arrays and objects `qs` can produce, are not modelled for `pageNum`. Header values are strings or absent.
- `String(n)` for `|n| >= 10^21` is not modelled. JavaScript writes such numbers in exponent notation (`1e+21`), while `IntToDecimal` always writes plain digits.
- Numbers are integers: NaN, fractions and the rounding of huge `parseInt` results are not modelled. Rounding never produces -1, so it cannot change the pagination flag.
- Utilities.GenerateToken: does not model an argument whose `typeof` is `function` or `symbol`, because JSON bodies and token payloads cannot hold one.
- Request bodies are typed records: `Credentials`, `UserPatch` and `NewUser` hold the fields each Joi schema declares, as strings. A body with a missing required field, a non-string field or an unknown key cannot be written down, so the gates in `UserHandlers.AuthenticateRoute`, `UserHandlers.CreateRoute` and `UserHandlers.UpdateUser` are only shown rejecting what the abstract schema reports. In the source, unknown keys never reach the handlers because `Joi.object` rejects them by default. `UserHandlers.NewUserData` never touching `refreshToken` rests on that rejection, and here on the body type.
- Jwt.Sound: assumes every issued token is verified before it expires. `jwt.sign` also keeps an `iat` the payload already carries and counts `exp` from it, while the model does not relate `exp` to `iat` at all. So a renewed access token really expires 9999 hours after the login's `iat`, not after the renewal, and a refresh token signed from claims with a past `exp` no longer verifies. `Middlewares.RotatedHeadersVerify`, `Utilities.RenewalRoundTrip` and `Utilities.AccessTokenPayloadNotRenewable` describe the source only within 9999 hours of the refresh payload's `iat`, and only for claims without a past `exp`.
- Js.LooselyEqualsEmptyString: an object claim with an own `toString` key is not modelled. JSON cannot make it a function, so comparing such an object with `''` throws, and the middleware would reject the token. The model treats every object as usable.

=== FILE: http.dfy ===
/** HTTP responses and the effects a middleware or handler issues on the
    Express request/response pair, in the order it issues them. */
module Http {
  import opened Js

  const StatusOk: int := 200
  const StatusBadRequest: int := 400
  const StatusUnauthorized: int := 401
  const StatusServerError: int := 500

  /** The body every catch-all handler answers with. */
  const ServerErrorMessage: string := "ERROR: Server failed to process your request(s) please try again"

  /** `res.status(status).json(body)`. */
  datatype Response = Response(status: int, body: JsValue)

  /** `{error: message}`. */
  function ErrorBody(message: string): JsValue
  {
    Obj(map["error" := Str(message)])
  }

  /** The 500 answer of the catch-all exception handlers. */
  function ServerError(): Response
  {
    Response(StatusServerError, ErrorBody(ServerErrorMessage))
  }

  /** A JSON array of strings. */
  function StrArray(items: seq<string>): (v: JsValue)
    ensures v.Arr? && |v.items| == |items|
    ensures forall i :: 0 <= i < |items| ==> v.items[i] == Str(items[i])
  {
    if |items| == 0 then Arr([]) else Arr([Str(items[0])] + StrArray(items[1..]).items)
  }

  /** One observable step of a middleware:
      `req.user = v`, `res.set(name, value)`, `User.updateOne(filter, update)`,
      `next()`, sending a response, or the middleware's promise rejecting with
      an error. Express 4 does not handle a rejected promise, so after
      `Unhandled` the request is neither passed on nor answered; with no
      `unhandledRejection` handler installed, Node 15 and later then end the
      process. */
  datatype Effect =
    | SetUser(user: JsValue)
    | SetHeader(name: string, value: string)
    | StoreUpdateOne(filter: map<string, JsValue>, update: map<string, JsValue>)
    | Next
    | Send(response: Response)
    | Unhandled(error: string)

  /** Calling `next()` and sending a response both hand the request off. */
  predicate IsTerminal(e: Effect)
  {
    e.Next? || e.Send?
  }

  /** The trace hands the request off exactly once, as its last step: one `next()`
      or one response, never both, never neither. */
  predicate EndsOnce(trace: seq<Effect>)
  {
    && |trace| > 0
    && IsTerminal(trace[|trace| - 1])
    && forall i :: 0 <= i < |trace| - 1 ==> !IsTerminal(trace[i])
  }
}

=== FILE: js.dfy ===
/** JavaScript values, as far as the modelled code inspects them: truthiness,
    `typeof`, `Array.isArray`, property lookup and loose equality with `''`. */
module Js {

  /** A JavaScript value. Numbers are integers: NaN, infinities and fractions
      never reach the modelled decisions. Objects are ordinary objects whose own
      properties do not shadow `valueOf` or `toString` (no accessors either), as
      a decoded JSON payload is. */
  datatype JsValue =
    | Undefined
    | Null
    | Bool(b: bool)
    | Num(n: int)
    | Str(s: string)
    | Arr(items: seq<JsValue>)
    | Obj(fields: map<string, JsValue>)

  /** `!!v`: everything is truthy except undefined, null, false, 0 and ''. */
  predicate Truthy(v: JsValue)
  {
    match v
    case Undefined => false
    case Null => false
    case Bool(b) => b
    case Num(n) => n != 0
    case Str(s) => s != ""
    case Arr(_) => true
    case Obj(_) => true
  }

  /** The string `typeof v` evaluates to; `null` and arrays are objects. */
  function TypeOf(v: JsValue): string
  {
    match v
    case Undefined => "undefined"
    case Null => "object"
    case Bool(_) => "boolean"
    case Num(_) => "number"
    case Str(_) => "string"
    case Arr(_) => "object"
    case Obj(_) => "object"
  }

  /** `Array.isArray(v)`. */
  predicate IsArray(v: JsValue)
  {
    v.Arr?
  }

  /** `o[key]` on a plain object: the own property, or undefined. */
  function Prop(fields: map<string, JsValue>, key: string): JsValue
  {
    if key in fields then fields[key] else Undefined
  }

  /** `String(v) === ''` for a value that can occur inside decoded JSON. An array
      converts to the comma-join of its elements, where null and undefined
      elements contribute the empty string. */
  predicate StringifiesToEmpty(v: JsValue)
    decreases v
  {
    match v
    case Str(s) => s == ""
    case Arr(items) =>
      |items| == 0 ||
      (|items| == 1 && (items[0].Undefined? || items[0].Null? || StringifiesToEmpty(items[0])))
    case _ => false
  }

  /** `v == ''` with JavaScript's loose equality: booleans and numbers compare
      numerically with 0, objects and arrays through their string conversion,
      null and undefined are never loosely equal to a string. */
  predicate LooselyEqualsEmptyString(v: JsValue)
  {
    match v
    case Undefined => false
    case Null => false
    case Bool(b) => !b
    case Num(n) => n == 0
    case Str(s) => s == ""
    case Arr(_) => StringifiesToEmpty(v)
    case Obj(_) => false
  }

  /** The test `!(!x || x == '')` that the auth middleware applies to a `username` claim. */
  predicate UsableClaim(v: JsValue)
  {
    !(!Truthy(v) || LooselyEqualsEmptyString(v))
  }

  /** A claim is usable exactly when it is a truthy non-array value, or an array
      whose string form is not empty. In particular the empty array and `['']`,
      although truthy, are rejected. */
  lemma UsableClaimCharacterization(v: JsValue)
    ensures UsableClaim(v) <==>
      match v
      case Str(s) => s != ""
      case Num(n) => n != 0
      case Bool(b) => b
      case Obj(_) => true
      case Arr(items) =>
        |items| >= 2 ||
        (|items| == 1 && !items[0].Undefined? && !items[0].Null? && !StringifiesToEmpty(items[0]))
      case _ => false
  {
  }

  /** Every falsy value is loosely equal to '' or is null/undefined, so the
      second half of `!x || x == ''` only ever adds truthy arrays. */
  lemma LooseEmptyOnlyAddsArrays(v: JsValue)
    ensures Truthy(v) && LooselyEqualsEmptyString(v) ==> v.Arr?
  {
  }
}

=== FILE: jwt.dfy ===
/** The JSON Web Token codec (`jsonwebtoken`'s `sign` and `verify` under the
    server's secret key) as an abstract pair of functions. Cryptography, clocks
    and expiry checking are not modelled: a codec is any pair of functions that
    satisfies the round trip the unit tests rely on. */
module Jwt {
  import opened Wrappers
  import opened Js

  /** A token's claims: the decoded JSON object. */
  type Claims = map<string, JsValue>

  /** `sign(claims, withExp)` is `jwt.sign(claims, key, {expiresIn: ...})` when
      `withExp` holds and `jwt.sign(claims, key)` otherwise; `decode(token)` is
      `jwt.verify(token, key)`, None when it throws (malformed, bad signature,
      expired). */
  datatype Codec = Codec(
    sign: (Claims, bool) -> string,
    decode: string -> Option<Claims>)

  /** The claims the library itself sets when signing: the issue time always,
      and the expiry when an `expiresIn` option is given. */
  const RegisteredClaims: set<string> := {"iat", "exp"}

  /** `decoded` is what a token signed from `claims` decodes to: every claim the
      library does not own comes back unchanged; a numeric `exp` is present when
      the token was signed with an expiry; without one, `exp` is absent unless
      the caller's claims brought their own; no other claim appears. */
  ghost predicate Carries(claims: Claims, decoded: Claims, withExp: bool)
  {
    && (forall k :: k in claims && k !in RegisteredClaims ==> k in decoded && decoded[k] == claims[k])
    && (forall k :: k in decoded ==> k in claims || k in RegisteredClaims)
    && (withExp ==> "exp" in decoded && decoded["exp"].Num?)
    && (!withExp && "exp" !in claims ==> "exp" !in decoded)
  }

  /** The round-trip property of a real signing key, for a token verified
      before it expires: every signed token is a non-empty string that
      verifies, and verification gives back the claims. Expiry is not
      modelled, and neither is the `iat` a payload already carries, which
      jsonwebtoken keeps and counts `exp` from. */
  ghost predicate Sound(c: Codec)
  {
    forall claims, withExp {:trigger c.decode(c.sign(claims, withExp))} ::
      && c.sign(claims, withExp) != ""
      && c.decode(c.sign(claims, withExp)).Some?
      && Carries(claims, c.decode(c.sign(claims, withExp)).value, withExp)
  }

  /** The round trip, instantiated for one token. */
  lemma SignThenDecode(c: Codec, claims: Claims, withExp: bool)
    requires Sound(c)
    ensures c.sign(claims, withExp) != ""
    ensures c.decode(c.sign(claims, withExp)).Some?
    ensures Carries(claims, c.decode(c.sign(claims, withExp)).value, withExp)
  {
  }
}

=== FILE: middlewares.dfy ===
/** The Express middlewares: the request-body validation gate and the
    authentication middleware that reads, verifies and renews the token pair. */
module Middlewares {
  import opened Wrappers
  import opened Js
  import opened Jwt
  import opened Utilities
  import opened Http

  /** `validateHTTPBody(schema)(req, res, next)`: answers 400 with the list of
      validation messages, or calls `next()` and sends nothing. */
  function ValidateHTTPBody<B>(schema: B -> SchemaVerdict, body: B): (trace: seq<Effect>)
    ensures EndsOnce(trace)
    ensures trace == [Next] <==> schema(body).NoError? || schema(body).details == []
    ensures trace != [Next] ==>
              && |trace| == 1 && trace[0].Send?
              && trace[0].response.status == StatusBadRequest
              && trace[0].response.body.Obj?
              && trace[0].response.body.fields.Keys == {"error"}
              && var listed := trace[0].response.body.fields["error"];
                 listed.Arr? && |listed.items| == |schema(body).details| &&
                 forall i :: 0 <= i < |listed.items| ==> listed.items[i] == Str(schema(body).details[i].message)
  {
    var valErrors := ValidateObject(schema, body);
    if |valErrors| > 0 then [Send(Response(StatusBadRequest, Obj(map["error" := StrArray(valErrors)])))]
    else [Next]
  }

  /** The paths that may be reached without a valid access token. */
  const UnauthenticatedUrls: seq<string> :=
    ["/healthcheck", "/api/v1/users/authenticate", "/api/v1/system/seed-data"]

  /** `list.indexOf(x)`: the first position holding `x`, or -1. */
  function IndexOf(list: seq<string>, x: string): (r: int)
    ensures -1 <= r < |list|
    ensures r == -1 <==> x !in list
    ensures r >= 0 ==> list[r] == x && forall j :: 0 <= j < r ==> list[j] != x
  {
    if |list| == 0 then -1
    else if list[0] == x then 0
    else
      var k := IndexOf(list[1..], x);
      if k == -1 then -1 else k + 1
  }

  /** The parts of an incoming request the middleware reads: the
      `x-access-token` and `x-refresh-token` headers (absent when not sent) and
      `req.originalUrl`. */
  datatype Request = Request(accessHeader: Option<string>, refreshHeader: Option<string>, originalUrl: string)

  /** The `try` block: the claims of a present, verifiable access token whose
      `username` passes `!u.username || u.username == ''`; None when the block
      throws (no token, `verifyToken` returned null, or an unusable username). */
  function AccessIdentity(c: Codec, accessHeader: Option<string>): (r: Option<Claims>)
    ensures r.Some? ==> && accessHeader.Some? && accessHeader.value != ""
                        && c.decode(accessHeader.value) == r
                        && UsableClaim(Prop(r.value, "username"))
    ensures r.None? ==> AccessRejected(c, accessHeader)
  {
    if accessHeader.None? || !Truthy(Str(accessHeader.value)) || accessHeader.value == "" then None
    else
      match VerifyToken(c, accessHeader)
      // Reading `.username` of null throws a TypeError.
      case None => None
      case Some(user) =>
        var name := Prop(user, "username");
        if !Truthy(name) || LooselyEqualsEmptyString(name) then None else Some(user)
  }

  const ExposeHeadersName: string := "Access-Control-Expose-Headers"
  const ExposeHeadersValue: string := "x-access-token, x-refresh-token"
  const AccessHeaderName: string := "x-access-token"
  const RefreshHeaderName: string := "x-refresh-token"
  const RefreshNotFoundMessage: string := "ERROR: Refresh token not found"
  const InvalidRefreshMessage: string := "ERROR: Invalid refresh token"

  /** `extractUserFromToken(req, res, next)`, as the trace of effects it issues.
      The request is passed on or answered exactly once, except when renewal
      is refused: then the middleware's promise rejects and nothing is sent. */
  function ExtractUserFromToken(c: Codec, req: Request): (trace: seq<Effect>)
    ensures EndsOnce(trace) <==> !(AccessRejected(c, req.accessHeader) && RenewalRefused(c, req))
    ensures AccessRejected(c, req.accessHeader) && RenewalRefused(c, req) ==>
              trace == [Unhandled(Message(ExpiresInWithExp))]
  {
    match AccessIdentity(c, req.accessHeader)
    case Some(user) => [SetUser(Obj(user)), Next]
    case None => RecoverFromRejectedAccess(c, req)
  }

  /** The `catch` block: bypass for allow-listed paths, otherwise fall back on
      the refresh token and rotate the pair. */
  function RecoverFromRejectedAccess(c: Codec, req: Request): (trace: seq<Effect>)
    ensures EndsOnce(trace) <==> !RenewalRefused(c, req)
    ensures RenewalRefused(c, req) ==> trace == [Unhandled(Message(ExpiresInWithExp))]
  {
    if IndexOf(UnauthenticatedUrls, req.originalUrl) > -1 then [Next]
    else if req.refreshHeader.None? || !Truthy(Str(req.refreshHeader.value)) || req.refreshHeader.value == "" then
      [SetUser(Null), Send(Response(StatusUnauthorized, ErrorBody(RefreshNotFoundMessage)))]
    else
      match VerifyToken(c, req.refreshHeader)
      case None => [Send(Response(StatusUnauthorized, ErrorBody(InvalidRefreshMessage)))]
      case Some(userFromRefreshToken) =>
        match GenerateNewTokensIfExpired(c, Obj(userFromRefreshToken))
        // A rejection inside the catch block escapes the middleware.
        case Err(e) => [Unhandled(Message(e))]
        case Ok(pair) =>
          [ StoreUpdateOne(map["_id" := Prop(userFromRefreshToken, "_id")],
                           map["newRefreshToken" := Str(pair.newRefreshToken)]),
            SetHeader(ExposeHeadersName, ExposeHeadersValue),
            SetHeader(AccessHeaderName, pair.newAccessToken),
            SetHeader(RefreshHeaderName, pair.newRefreshToken),
            SetUser(Obj(userFromRefreshToken)),
            Next ]
  }

  /** Off the allow-list, the refresh token decodes to a payload that already
      has `exp`, so signing the renewed access token is refused. */
  predicate RenewalRefused(c: Codec, req: Request)
  {
    && req.originalUrl !in UnauthenticatedUrls
    && req.refreshHeader.Some?
    && req.refreshHeader.value != ""
    && c.decode(req.refreshHeader.value).Some?
    && HasExp(c.decode(req.refreshHeader.value).value)
  }

  // ---------------------------------------------------------------------------
  // The five outcomes, each stated in terms of the request and the codec.

  /** The access token is present, decodes, and carries a usable `username`. */
  predicate AccessAccepted(c: Codec, accessHeader: Option<string>, user: Claims)
  {
    && accessHeader.Some?
    && accessHeader.value != ""
    && c.decode(accessHeader.value) == Some(user)
    && UsableClaim(Prop(user, "username"))
  }

  /** The access token is absent, empty, undecodable, or lacks a usable `username`. */
  predicate AccessRejected(c: Codec, accessHeader: Option<string>)
  {
    || accessHeader.None?
    || accessHeader.value == ""
    || c.decode(accessHeader.value).None?
    || !UsableClaim(Prop(c.decode(accessHeader.value).value, "username"))
  }

  /** The `try` block succeeds exactly for an accepted access token. */
  lemma {:induction false} AccessIdentityCharacterization(c: Codec, accessHeader: Option<string>)
    ensures AccessIdentity(c, accessHeader).None? <==> AccessRejected(c, accessHeader)
    ensures forall user :: AccessIdentity(c, accessHeader) == Some(user) <==> AccessAccepted(c, accessHeader, user)
  {
  }

  /** A valid access token attaches its claims and passes the request on, on any
      path; the refresh token is not looked at and no header is set. */
  lemma {:induction false} ValidAccessPasses(c: Codec, req: Request, user: Claims)
    requires AccessAccepted(c, req.accessHeader, user)
    ensures ExtractUserFromToken(c, req) == [SetUser(Obj(user)), Next]
    ensures forall refresh :: ExtractUserFromToken(c, req.(refreshHeader := refresh)) == ExtractUserFromToken(c, req)
  {
  }

  /** A rejected access token on an allow-listed path passes the request on with
      no identity, whatever the refresh token. */
  lemma {:induction false} AllowListedBypass(c: Codec, req: Request)
    requires AccessRejected(c, req.accessHeader)
    requires req.originalUrl in UnauthenticatedUrls
    ensures ExtractUserFromToken(c, req) == [Next]
    ensures forall refresh :: ExtractUserFromToken(c, req.(refreshHeader := refresh)) == [Next]
  {
  }

  /** Off the allow-list, a rejected access token with no refresh token is
      answered 401 "not found", with `req.user` set to null. */
  lemma {:induction false} MissingRefreshRejected(c: Codec, req: Request)
    requires AccessRejected(c, req.accessHeader)
    requires req.originalUrl !in UnauthenticatedUrls
    requires req.refreshHeader in {None, Some("")}
    ensures ExtractUserFromToken(c, req) ==
              [SetUser(Null), Send(Response(401, Obj(map["error" := Str("ERROR: Refresh token not found")])))]
  {
  }

  /** Off the allow-list, a refresh token the codec rejects is answered 401
      "invalid"; nothing is issued, written or set. */
  lemma {:induction false} InvalidRefreshRejected(c: Codec, req: Request)
    requires AccessRejected(c, req.accessHeader)
    requires req.originalUrl !in UnauthenticatedUrls
    requires req.refreshHeader.Some? && req.refreshHeader.value != ""
    requires c.decode(req.refreshHeader.value).None?
    ensures ExtractUserFromToken(c, req) ==
              [Send(Response(401, Obj(map["error" := Str("ERROR: Invalid refresh token")])))]
  {
  }

  /** Off the allow-list, a decodable refresh token (no `username` check) whose
      payload has no `exp` rotates the pair: the refresh token is written under
      `newRefreshToken` for the payload's `_id`, both tokens are sent in headers
      that are exposed to the browser, and the refresh payload becomes `req.user`. */
  lemma {:induction false} RefreshRotates(c: Codec, req: Request, user: Claims)
    requires AccessRejected(c, req.accessHeader)
    requires req.originalUrl !in UnauthenticatedUrls
    requires req.refreshHeader.Some? && req.refreshHeader.value != ""
    requires c.decode(req.refreshHeader.value) == Some(user)
    requires !HasExp(user)
    ensures ExtractUserFromToken(c, req) ==
              [ StoreUpdateOne(map["_id" := Prop(user, "_id")], map["newRefreshToken" := Str(c.sign(user, false))]),
                SetHeader("Access-Control-Expose-Headers", "x-access-token, x-refresh-token"),
                SetHeader("x-access-token", c.sign(user, true)),
                SetHeader("x-refresh-token", c.sign(user, false)),
                SetUser(Obj(user)),
                Next ]
  {
  }

  /** With a sound codec, the rotated headers verify back to the refresh
      payload's claims: the access token with an expiry, the refresh token
      without one when the payload had none. */
  lemma {:induction false} RotatedHeadersVerify(c: Codec, req: Request, user: Claims)
    requires Sound(c)
    requires AccessRejected(c, req.accessHeader)
    requires req.originalUrl !in UnauthenticatedUrls
    requires req.refreshHeader.Some? && req.refreshHeader.value != ""
    requires c.decode(req.refreshHeader.value) == Some(user)
    requires !HasExp(user)
    ensures forall i :: 0 <= i < |ExtractUserFromToken(c, req)| ==>
              var e := ExtractUserFromToken(c, req)[i];
              (e.SetHeader? && e.name == AccessHeaderName ==>
                 VerifyToken(c, Some(e.value)).Some? && Carries(user, VerifyToken(c, Some(e.value)).value, true)) &&
              (e.SetHeader? && e.name == RefreshHeaderName ==>
                 VerifyToken(c, Some(e.value)).Some? && Carries(user, VerifyToken(c, Some(e.value)).value, false))
  {
    RefreshRotates(c, req, user);
    SignThenDecode(c, user, true);
    SignThenDecode(c, user, false);
  }

  /** Off the allow-list, a decodable refresh token whose payload already has
      `exp` is neither rotated nor rejected: renewal throws inside the catch
      block, nothing is written, and the request is never answered. */
  lemma {:induction false} ExpiringRefreshUnhandled(c: Codec, req: Request, user: Claims)
    requires AccessRejected(c, req.accessHeader)
    requires req.originalUrl !in UnauthenticatedUrls
    requires req.refreshHeader.Some? && req.refreshHeader.value != ""
    requires c.decode(req.refreshHeader.value) == Some(user)
    requires HasExp(user)
    ensures ExtractUserFromToken(c, req) == [Unhandled(Message(ExpiresInWithExp))]
    ensures !EndsOnce(ExtractUserFromToken(c, req))
  {
  }

  /** An access token sent as the refresh token is such a token: with a sound
      codec every access token decodes with `exp`. */
  lemma {:induction false} AccessTokenAsRefreshUnhandled(c: Codec, req: Request, claims: Claims)
    requires Sound(c)
    requires AccessRejected(c, req.accessHeader)
    requires req.originalUrl !in UnauthenticatedUrls
    requires req.refreshHeader == Some(c.sign(claims, true))
    ensures !EndsOnce(ExtractUserFromToken(c, req))
  {
    SignThenDecode(c, claims, true);
  }

  /** The renewal write never targets the schema's `refreshToken` field: every
      store update the middleware issues sets exactly `newRefreshToken`, filtered
      by the refresh payload's `_id`. */
  lemma {:induction false} RenewalWritesNewRefreshTokenKey(c: Codec, req: Request)
    ensures forall e :: e in ExtractUserFromToken(c, req) && e.StoreUpdateOne? ==>
              e.update.Keys == {"newRefreshToken"} && "refreshToken" !in e.update && e.filter.Keys == {"_id"}
  {
  }

  /** Response headers are only ever set together with a rotation, and then the
      request is passed on rather than answered. */
  lemma {:induction false} HeadersOnlyOnRotation(c: Codec, req: Request)
    ensures (exists e :: e in ExtractUserFromToken(c, req) && e.SetHeader?) ==>
              && Next in ExtractUserFromToken(c, req)
              && (exists e :: e in ExtractUserFromToken(c, req) && e.StoreUpdateOne?)
  {
    var trace := ExtractUserFromToken(c, req);
    if |trace| == 6 {
      assert trace[0] in trace;
    }
  }
}

=== FILE: parse_int.dfy ===
/** JavaScript's global `parseInt(string)` called without a radix, as the user
    list handler applies it to the `pageNum` query parameter (section 19.2.5 of
    ECMA-262): skip leading white space, read an optional sign, switch to base 16
    on a `0x`/`0X` prefix, then read the longest run of digits; no digits gives NaN. */
module NumberParsing {
  import opened Wrappers

  /** The characters `parseInt` skips as leading white space: WhiteSpace and
      LineTerminator of ECMA-262 (tab, vertical tab, form feed, the Unicode space
      separators, the byte order mark, and the four line terminators). */
  const JsWhitespace: set<char> := {
    '\t', '\n', '\U{000B}', '\U{000C}', '\r', ' ', '\U{00A0}', '\U{1680}',
    '\U{2000}', '\U{2001}', '\U{2002}', '\U{2003}', '\U{2004}', '\U{2005}',
    '\U{2006}', '\U{2007}', '\U{2008}', '\U{2009}', '\U{200A}',
    '\U{2028}', '\U{2029}', '\U{202F}', '\U{205F}', '\U{3000}', '\U{FEFF}'}

  predicate IsJsWhitespace(ch: char)
  {
    ch in JsWhitespace
  }

  /** `s` without its leading white space. */
  function TrimStart(s: string): (t: string)
    ensures |t| <= |s|
    ensures |t| == 0 || !IsJsWhitespace(t[0])
  {
    if |s| > 0 && IsJsWhitespace(s[0]) then TrimStart(s[1..]) else s
  }

  /** Trimming only ever drops a prefix. */
  lemma {:induction false} TrimStartIsSuffix(s: string)
    ensures TrimStart(s) == s[|s| - |TrimStart(s)|..]
  {
    if |s| > 0 && IsJsWhitespace(s[0]) {
      TrimStartIsSuffix(s[1..]);
    }
  }

  predicate IsDecimalDigit(ch: char)
  {
    '0' <= ch <= '9'
  }

  /** `ch` is a digit of base `radix`, which is 10 or 16. */
  predicate IsDigitIn(ch: char, radix: nat)
  {
    IsDecimalDigit(ch) || (radix == 16 && ('a' <= ch <= 'f' || 'A' <= ch <= 'F'))
  }

  /** The value of a decimal or hexadecimal digit. */
  function DigitValue(ch: char): (d: nat)
    requires IsDigitIn(ch, 16)
    ensures d < 16
    ensures IsDecimalDigit(ch) ==> d < 10
  {
    if IsDecimalDigit(ch) then ch as int - '0' as int
    else if 'a' <= ch <= 'f' then ch as int - 'a' as int + 10
    else ch as int - 'A' as int + 10
  }

  /** The longest prefix of `s` made of base-`radix` digits. */
  function DigitPrefix(s: string, radix: nat): (z: string)
    ensures |z| <= |s| && z == s[..|z|]
    ensures forall i :: 0 <= i < |z| ==> IsDigitIn(z[i], radix)
    ensures |z| == |s| || !IsDigitIn(s[|z|], radix)
  {
    if |s| == 0 || !IsDigitIn(s[0], radix) then []
    else [s[0]] + DigitPrefix(s[1..], radix)
  }

  /** The number a run of digits denotes in base `radix`, most significant first. */
  function DigitsValue(z: string, radix: nat): nat
    requires radix == 10 || radix == 16
    requires forall i :: 0 <= i < |z| ==> IsDigitIn(z[i], radix)
  {
    if |z| == 0 then 0
    else
      assert IsDigitIn(z[|z| - 1], radix);
      DigitsValue(z[..|z| - 1], radix) * radix + DigitValue(z[|z| - 1])
  }

  /** `parseInt(s)`; None stands for NaN. The value is kept exact: JavaScript
      rounds it to a double above 2^53, which never turns a result into -1. */
  function ParseInt(s: string): (r: Option<int>)
    ensures r.Some? ==> exists k :: 0 <= k < |s| && IsDecimalDigit(s[k])
  {
    var t := TrimStart(s);
    var u := Unsigned(t);
    var radix := if HasHexPrefix(u) then 16 else 10;
    var z := DigitPrefix(if HasHexPrefix(u) then u[2..] else u, radix);
    if |z| == 0 then None
    else
      // The first character after the sign is a decimal digit: the '0' of a
      // hex prefix, or the first digit read.
      TrimStartIsSuffix(s);
      assert u == s[|s| - |u|..] && |u| > 0 && IsDecimalDigit(u[0]);
      assert IsDecimalDigit(s[|s| - |u|]);
      SignedValue(Sign(t), z, radix)
  }

  /** -1 when the trimmed input starts with '-', otherwise 1. */
  function Sign(t: string): int
  {
    if |t| > 0 && t[0] == '-' then -1 else 1
  }

  /** The trimmed input without its sign character. */
  function Unsigned(t: string): string
  {
    if |t| > 0 && (t[0] == '-' || t[0] == '+') then t[1..] else t
  }

  /** The unsigned part starts with `0x` or `0X`. */
  predicate HasHexPrefix(u: string)
  {
    |u| >= 2 && u[0] == '0' && (u[1] == 'x' || u[1] == 'X')
  }

  /** `parseInt(undefined)` reads the string "undefined", which has no digits. */
  function ParseIntOf(param: Option<string>): Option<int>
  {
    match param
    case None => ParseInt("undefined")
    case Some(s) => ParseInt(s)
  }

  /** The decimal digit for `d`. */
  function DigitChar(d: nat): (ch: char)
    requires d < 10
    ensures IsDecimalDigit(ch) && DigitValue(ch) == d
  {
    ('0' as int + d) as char
  }

  /** The plain decimal numeral for `m`, without leading zeros. It is what
      `String(m)` writes when `m < 10^21`; from 10^21 on JavaScript switches to
      exponent notation (`1e+21`). */
  function NatToDecimal(m: nat): string
  {
    if m < 10 then [DigitChar(m)] else NatToDecimal(m / 10) + [DigitChar(m % 10)]
  }

  /** The plain decimal numeral of an integer `n`, with '-' when negative: `String(n)`
      whenever `|n| < 10^21`. */
  function IntToDecimal(n: int): string
  {
    if n < 0 then "-" + NatToDecimal(-n) else NatToDecimal(n)
  }

  /** A numeral is a non-empty run of decimal digits that denotes `m` and starts
      with '0' only when it is "0". */
  lemma {:induction false} NatToDecimalSound(m: nat)
    ensures |NatToDecimal(m)| >= 1
    ensures forall i :: 0 <= i < |NatToDecimal(m)| ==> IsDecimalDigit(NatToDecimal(m)[i])
    ensures DigitsValue(NatToDecimal(m), 10) == m
    ensures NatToDecimal(m)[0] == '0' ==> m == 0
  {
    if m >= 10 {
      NatToDecimalSound(m / 10);
      var z := NatToDecimal(m);
      assert z[..|z| - 1] == NatToDecimal(m / 10);
      assert z[0] == NatToDecimal(m / 10)[0];
    }
  }

  /** A run of decimal digits followed by a non-digit is read up to the non-digit. */
  lemma {:induction false} DigitPrefixOfDigits(z: string, rest: string)
    requires forall i :: 0 <= i < |z| ==> IsDecimalDigit(z[i])
    requires rest == [] || !IsDecimalDigit(rest[0])
    ensures DigitPrefix(z + rest, 10) == z
  {
    if |z| > 0 {
      assert (z + rest)[1..] == z[1..] + rest;
      DigitPrefixOfDigits(z[1..], rest);
    } else {
      assert z + rest == rest;
    }
  }

  /** Digits and the minus sign are not white space. */
  lemma {:induction false} NumeralCharNotWhitespace(ch: char)
    requires IsDecimalDigit(ch) || ch == '-'
    ensures !IsJsWhitespace(ch)
  {
  }

  /** The value `parseInt` produces from a sign and a run of digits. */
  function SignedValue(sign: int, z: string, radix: nat): Option<int>
    requires radix == 10 || radix == 16
    requires forall i :: 0 <= i < |z| ==> IsDigitIn(z[i], radix)
  {
    if |z| == 0 then None else Some(sign * DigitsValue(z, radix))
  }

  /** `parseInt` on an input with no leading white space and no hex prefix reads
      decimal digits after the sign. */
  lemma {:induction false} ParseIntDecimal(s: string)
    requires |s| > 0 && !IsJsWhitespace(s[0])
    requires !HasHexPrefix(Unsigned(s))
    ensures ParseInt(s) == SignedValue(Sign(s), DigitPrefix(Unsigned(s), 10), 10)
  {
    assert TrimStart(s) == s;
  }

  /** The unsigned numeral after an optional minus sign. */
  lemma {:induction false} NumeralParts(n: int, rest: string)
    ensures var m: nat := if n < 0 then -n else n;
            var s := IntToDecimal(n) + rest;
            && |s| > 0
            && (s[0] == '-' || IsDecimalDigit(s[0]))
            && Unsigned(s) == NatToDecimal(m) + rest
            && Sign(s) == (if n < 0 then -1 else 1)
  {
    var m: nat := if n < 0 then -n else n;
    NatToDecimalSound(m);
    var u := NatToDecimal(m) + rest;
    var s := IntToDecimal(n) + rest;
    if n < 0 {
      assert s == "-" + u;
      assert s[1..] == u;
    } else {
      assert s == u;
      assert u[0] == NatToDecimal(m)[0];
    }
  }

  /** `parseInt` inverts the plain decimal numeral of every integer (which is
      `String(n)` for `|n| < 10^21`), and stops at the first character after the
      numeral: `parseInt(numeral + rest) === n` whenever `rest` does not
      continue the numeral. (After a lone "0" an 'x' would start a hex prefix.) */
  lemma {:induction false} ParseIntOfNumeral(n: int, rest: string)
    requires rest == [] || (!IsDecimalDigit(rest[0]) && (n != 0 || (rest[0] != 'x' && rest[0] != 'X')))
    ensures ParseInt(IntToDecimal(n) + rest) == Some(n)
  {
    var m: nat := if n < 0 then -n else n;
    var z := NatToDecimal(m);
    NatToDecimalSound(m);
    NumeralParts(n, rest);
    var s := IntToDecimal(n) + rest;
    var u := z + rest;
    NumeralCharNotWhitespace(s[0]);
    assert !HasHexPrefix(u) by {
      if |u| >= 2 && u[0] == '0' {
        assert z[0] == '0';
        assert |z| == 1;
        assert u[1] == rest[0];
      }
    }
    ParseIntDecimal(s);
    DigitPrefixOfDigits(z, rest);
    assert SignedValue(Sign(s), z, 10) == Some(n);
  }

  /** A missing query parameter never reads as a number: `parseInt(undefined)` is NaN. */
  lemma {:induction false} UndefinedParsesToNaN()
    ensures ParseIntOf(None) == None
  {
    var s := "undefined";
    assert forall k :: 0 <= k < |s| ==> !IsDecimalDigit(s[k]);
  }

  /** Leading white space never changes what `parseInt` reads. */
  lemma {:induction false} LeadingWhitespaceIgnored(w: string, s: string)
    requires forall i :: 0 <= i < |w| ==> IsJsWhitespace(w[i])
    ensures ParseInt(w + s) == ParseInt(s)
  {
    TrimStartSkips(w, s);
  }

  lemma {:induction false} TrimStartSkips(w: string, s: string)
    requires forall i :: 0 <= i < |w| ==> IsJsWhitespace(w[i])
    ensures TrimStart(w + s) == TrimStart(s)
  {
    if |w| > 0 {
      assert (w + s)[1..] == w[1..] + s;
      TrimStartSkips(w[1..], s);
    } else {
      assert w + s == s;
    }
  }

  /** With leading white space as well: `parseInt(w + numeral + rest) === n`. */
  lemma {:induction false} ParseIntOfPaddedNumeral(w: string, n: int, rest: string)
    requires forall i :: 0 <= i < |w| ==> IsJsWhitespace(w[i])
    requires rest == [] || (!IsDecimalDigit(rest[0]) && (n != 0 || (rest[0] != 'x' && rest[0] != 'X')))
    ensures ParseInt(w + IntToDecimal(n) + rest) == Some(n)
  {
    var d := IntToDecimal(n);
    var numeral := d + rest;
    assert ParseInt(numeral) == Some(n) by { ParseIntOfNumeral(n, rest); }
    assert ParseInt(w + numeral) == ParseInt(numeral) by { LeadingWhitespaceIgnored(w, numeral); }
    assert w + d + rest == w + numeral;
  }

  /** The sentinel the list handler looks for is read as -1 also with leading
      white space and trailing text: `parseInt(' -1abc') === -1`. */
  lemma {:induction false} MinusOneParses(w: string, rest: string)
    requires forall i :: 0 <= i < |w| ==> IsJsWhitespace(w[i])
    requires rest == [] || !IsDecimalDigit(rest[0])
    ensures ParseInt(w + "-1" + rest) == Some(-1)
  {
    assert NatToDecimal(1) == [DigitChar(1)];
    assert IntToDecimal(-1) == "-1";
    ParseIntOfPaddedNumeral(w, -1, rest);
  }
}

=== FILE: store.dfy ===
/** The `users` collection: User records (the fields of the mongoose schema in
    models/user.js, plus the `role` the handlers write) held in the collection's
    natural order. `findOne`, `updateOne`, `findOneAndUpdate` and `deleteOne`
    act on the first record that matches their filter. The `_id` index always
    refuses a colliding write with a duplicate-key error. The schema's unique
    `username` index exists only where mongoose built it (the server enables
    index building in development mode only), so every write takes
    `usernameIndex`, saying whether that index is in force. */
module Store {
  import opened Wrappers

  /** One stored user. `lastname` is optional in the schema; `refreshToken`
      defaults to the empty string; `createdAt` is the insertion timestamp. */
  datatype User = User(
    id: string,
    firstname: string,
    lastname: Option<string>,
    username: string,
    password: string,
    role: string,
    refreshToken: string,
    createdAt: int)

  /** A query filter: `{_id: id}` or `{username: name}`. */
  datatype Condition = ById(id: string) | ByUsername(username: string)

  predicate Matches(u: User, cond: Condition)
  {
    match cond
    case ById(id) => u.id == id
    case ByUsername(name) => u.username == name
  }

  /** The position of the first record matching `cond`, if any. */
  function FindFirst(store: seq<User>, cond: Condition): (r: Option<nat>)
    ensures r.Some? ==> r.value < |store| && Matches(store[r.value], cond)
    ensures r.Some? ==> forall j :: 0 <= j < r.value ==> !Matches(store[j], cond)
    ensures r.None? <==> forall j :: 0 <= j < |store| ==> !Matches(store[j], cond)
  {
    if |store| == 0 then None
    else if Matches(store[0], cond) then Some(0)
    else
      match FindFirst(store[1..], cond)
      case None => None
      case Some(k) => Some(k + 1)
  }

  /** An update document: the fields it sets. */
  datatype Update = Update(
    firstname: Option<string>,
    lastname: Option<string>,
    username: Option<string>,
    password: Option<string>,
    role: Option<string>,
    refreshToken: Option<string>)

  /** `u` with every field the update sets replaced. */
  function Apply(u: User, upd: Update): (v: User)
    ensures v.id == u.id && v.createdAt == u.createdAt
    ensures v.firstname == (if upd.firstname.Some? then upd.firstname.value else u.firstname)
    ensures v.lastname == (if upd.lastname.Some? then upd.lastname else u.lastname)
    ensures v.username == (if upd.username.Some? then upd.username.value else u.username)
    ensures v.password == (if upd.password.Some? then upd.password.value else u.password)
    ensures v.role == (if upd.role.Some? then upd.role.value else u.role)
    ensures v.refreshToken == (if upd.refreshToken.Some? then upd.refreshToken.value else u.refreshToken)
    ensures upd == Update(None, None, None, None, None, None) ==> v == u
  {
    User(
      u.id,
      if upd.firstname.Some? then upd.firstname.value else u.firstname,
      if upd.lastname.Some? then upd.lastname else u.lastname,
      if upd.username.Some? then upd.username.value else u.username,
      if upd.password.Some? then upd.password.value else u.password,
      if upd.role.Some? then upd.role.value else u.role,
      if upd.refreshToken.Some? then upd.refreshToken.value else u.refreshToken,
      u.createdAt)
  }

  /** A write the unique indexes refuse. */
  datatype StoreError = DuplicateKey

  /** Some record other than position `i` already has `name`. */
  predicate UsernameTakenElsewhere(store: seq<User>, i: nat, name: string)
  {
    exists j :: 0 <= j < |store| && j != i && store[j].username == name
  }

  /** `updateOne(cond, upd)`: the first matching record is updated in place; no
      match leaves the collection as it is; under the username index, a
      username that another record holds is refused. */
  function UpdateOne(store: seq<User>, cond: Condition, upd: Update, usernameIndex: bool): (r: Result<seq<User>, StoreError>)
    ensures FindFirst(store, cond).None? ==> r == Ok(store)
    ensures r.Err? <==> usernameIndex && FindFirst(store, cond).Some? && upd.username.Some? &&
                        UsernameTakenElsewhere(store, FindFirst(store, cond).value, upd.username.value)
    ensures r.Ok? ==> |r.value| == |store|
    ensures r.Ok? && FindFirst(store, cond).Some? ==>
              var i := FindFirst(store, cond).value;
              r.value[i] == Apply(store[i], upd) &&
              forall j :: 0 <= j < |store| && j != i ==> r.value[j] == store[j]
  {
    match FindFirst(store, cond)
    case None => Ok(store)
    case Some(i) =>
      if usernameIndex && upd.username.Some? && UsernameTakenElsewhere(store, i, upd.username.value) then Err(DuplicateKey)
      else Ok(store[i := Apply(store[i], upd)])
  }

  /** `deleteOne(cond)`: the first matching record is removed, the others keep
      their order; no match leaves the collection as it is. */
  function DeleteOne(store: seq<User>, cond: Condition): (r: seq<User>)
    ensures FindFirst(store, cond).None? ==> r == store
    ensures FindFirst(store, cond).Some? ==>
              var i := FindFirst(store, cond).value;
              |r| == |store| - 1 &&
              (forall j :: 0 <= j < i ==> r[j] == store[j]) &&
              (forall j :: i <= j < |r| ==> r[j] == store[j + 1])
  {
    match FindFirst(store, cond)
    case None => store
    case Some(i) => store[..i] + store[i + 1..]
  }

  /** `create(doc)`: the record is appended unless its `_id` is taken, or,
      under the username index, its `username` is. */
  function InsertOne(store: seq<User>, u: User, usernameIndex: bool): (r: Result<seq<User>, StoreError>)
    ensures r.Ok? <==> FindFirst(store, ById(u.id)).None? &&
                       (usernameIndex ==> FindFirst(store, ByUsername(u.username)).None?)
    ensures r.Ok? ==> r.value == store + [u]
  {
    if FindFirst(store, ById(u.id)).Some? then Err(DuplicateKey)
    else if usernameIndex && FindFirst(store, ByUsername(u.username)).Some? then Err(DuplicateKey)
    else Ok(store + [u])
  }

  /** What the `_id` index guarantees: no two records share an `_id`. */
  ghost predicate UniqueIds(store: seq<User>)
  {
    forall i, j :: 0 <= i < j < |store| ==> store[i].id != store[j].id
  }

  /** What the `username` index guarantees when it is in force. */
  ghost predicate UniqueUsernames(store: seq<User>)
  {
    forall i, j :: 0 <= i < j < |store| ==> store[i].username != store[j].username
  }

  /** The invariant the indexes in force maintain. */
  ghost predicate WellFormed(store: seq<User>, usernameIndex: bool)
  {
    UniqueIds(store) && (usernameIndex ==> UniqueUsernames(store))
  }

  /** With unique ids a record is the first (and only) match of its own `_id`. */
  lemma {:induction false} FindOwnId(store: seq<User>, i: nat)
    requires UniqueIds(store) && i < |store|
    ensures FindFirst(store, ById(store[i].id)) == Some(i)
  {
    assert Matches(store[i], ById(store[i].id));
  }

  /** An update keeps the indexes in force unique. */
  lemma {:induction false} UpdateOnePreservesWellFormed(store: seq<User>, cond: Condition, upd: Update, usernameIndex: bool)
    requires WellFormed(store, usernameIndex)
    requires UpdateOne(store, cond, upd, usernameIndex).Ok?
    ensures WellFormed(UpdateOne(store, cond, upd, usernameIndex).value, usernameIndex)
  {
    var r := UpdateOne(store, cond, upd, usernameIndex).value;
    if FindFirst(store, cond).Some? {
      var i := FindFirst(store, cond).value;
      forall a, b | 0 <= a < b < |r|
        ensures r[a].id != r[b].id
        ensures usernameIndex ==> r[a].username != r[b].username
      {
        if a == i || b == i {
          var other := if a == i then b else a;
          assert r[other] == store[other];
          if usernameIndex && upd.username.Some? {
            assert !UsernameTakenElsewhere(store, i, upd.username.value);
            assert store[other].username != upd.username.value;
          }
        }
      }
    }
  }

  /** A delete keeps the indexes in force unique. When the filter is backed by
      an index (always for `_id`, for `username` only under its index) no
      record matching it remains. */
  lemma {:induction false} DeleteOnePreservesWellFormed(store: seq<User>, cond: Condition, usernameIndex: bool)
    requires WellFormed(store, usernameIndex)
    ensures WellFormed(DeleteOne(store, cond), usernameIndex)
    ensures cond.ById? || usernameIndex ==> FindFirst(DeleteOne(store, cond), cond).None?
  {
    var r := DeleteOne(store, cond);
    if FindFirst(store, cond).Some? {
      var i := FindFirst(store, cond).value;
      forall a, b | 0 <= a < b < |r|
        ensures r[a].id != r[b].id
        ensures usernameIndex ==> r[a].username != r[b].username
      {
        var a' := if a < i then a else a + 1;
        var b' := if b < i then b else b + 1;
        assert r[a] == store[a'] && r[b] == store[b'] && a' < b';
      }
      if cond.ById? || usernameIndex {
        forall j | 0 <= j < |r|
          ensures !Matches(r[j], cond)
        {
          var j' := if j < i then j else j + 1;
          assert r[j] == store[j'];
          if j' > i {
            match cond
            case ById(_) => assert store[i].id != store[j'].id;
            case ByUsername(_) => assert store[i].username != store[j'].username;
          }
        }
      }
    }
  }

  /** Without the username index a delete by username removes only the first of
      two records sharing it: the second still matches afterwards. */
  lemma {:induction false} DeleteByUsernameLeavesDuplicate(a: User, b: User)
    requires a.username == b.username && a.id != b.id
    ensures WellFormed([a, b], false)
    ensures DeleteOne([a, b], ByUsername(a.username)) == [b]
    ensures FindFirst(DeleteOne([a, b], ByUsername(a.username)), ByUsername(a.username)) == Some(0)
  {
    assert Matches([a, b][0], ByUsername(a.username));
    assert [a, b][1..] == [b];
  }

  /** An insertion keeps the indexes in force unique. */
  lemma {:induction false} InsertOnePreservesWellFormed(store: seq<User>, u: User, usernameIndex: bool)
    requires WellFormed(store, usernameIndex)
    requires InsertOne(store, u, usernameIndex).Ok?
    ensures WellFormed(InsertOne(store, u, usernameIndex).value, usernameIndex)
  {
    var r := InsertOne(store, u, usernameIndex).value;
    forall a, b | 0 <= a < b < |r|
      ensures r[a].id != r[b].id
      ensures usernameIndex ==> r[a].username != r[b].username
    {
      if b == |store| {
        assert !Matches(store[a], ById(u.id));
        if usernameIndex {
          assert !Matches(store[a], ByUsername(u.username));
        }
      }
    }
  }
}

=== FILE: user_handlers.dfy ===
/** The `/users` route handlers: authenticate, update, delete, get one, list
    and create. Password hashing, the ObjectId test and the Joi schemas are
    parameters; the collection is a `Store` sequence threaded through. */
module UserHandlers {
  import opened Wrappers
  import opened Js
  import opened Jwt
  import opened Utilities
  import opened Http
  import opened Middlewares
  import opened NumberParsing
  import opened Store

  /** bcrypt: `hash(plain)` is `hashSync(plain, genSaltSync(rounds))` for this
      request's salt, `compare(plain, hashed)` is `compareSync`. */
  datatype Crypto = Crypto(hash: string -> string, compare: (string, string) -> bool)

  /** What a handler sends, and the collection after the writes it issued. */
  datatype Outcome = Outcome(response: Response, store: seq<User>)

  /** `{result: text}` with the given status. */
  function ResultOnly(status: int, text: string): Response
  {
    Response(status, Obj(map["result" := Str(text)]))
  }

  const UserNotFoundMessage: string := "ERROR: user does not exists"
  const BadPasswordMessage: string := "ERROR: failed to authenticate"
  const MissingIdMessage: string := "ERROR: userId must be specified"

  /** The fields of a record as JSON, restricted to a projection. */
  function UserJson(u: User, projection: set<string>): (v: JsValue)
    ensures v.Obj?
    ensures v.fields.Keys == projection * (StoredFields + (if u.lastname.Some? then {"lastname"} else {}))
    ensures "_id" in v.fields ==> v.fields["_id"] == Str(u.id)
    ensures "username" in v.fields ==> v.fields["username"] == Str(u.username)
    ensures "firstname" in v.fields ==> v.fields["firstname"] == Str(u.firstname)
    ensures "password" in v.fields ==> v.fields["password"] == Str(u.password)
    ensures "role" in v.fields ==> v.fields["role"] == Str(u.role)
    ensures "refreshToken" in v.fields ==> v.fields["refreshToken"] == Str(u.refreshToken)
    ensures "createdAt" in v.fields ==> v.fields["createdAt"] == Num(u.createdAt)
    ensures "lastname" in v.fields ==> u.lastname.Some? && v.fields["lastname"] == Str(u.lastname.value)
  {
    var all := map[
      "_id" := Str(u.id), "firstname" := Str(u.firstname), "username" := Str(u.username),
      "password" := Str(u.password), "role" := Str(u.role), "refreshToken" := Str(u.refreshToken),
      "createdAt" := Num(u.createdAt)];
    var withLast := if u.lastname.Some? then all["lastname" := Str(u.lastname.value)] else all;
    Obj(map k | k in withLast && k in projection :: withLast[k])
  }

  /** The fields every record has; `lastname` is present only when set. */
  const StoredFields: set<string> := {"_id", "firstname", "username", "password", "role", "refreshToken", "createdAt"}

  /** `'_id firstname lastname username role '`, the get-one and list projection. */
  const PublicFields: set<string> := {"_id", "firstname", "lastname", "username", "role"}
  /** The update handler's projection, which adds the timestamps. */
  const PublicFieldsWithTimestamps: set<string> := PublicFields + {"createdAt", "updatedAt"}
  /** Every stored field: what `User.create` hands back. */
  const AllFields: set<string> := PublicFields + {"password", "refreshToken", "createdAt"}

  /** `findOne(cond, projection)`: the first match as JSON, or null. */
  function FindOneJson(store: seq<User>, cond: Condition, projection: set<string>): (v: JsValue)
    ensures v.Null? <==> FindFirst(store, cond).None?
  {
    match FindFirst(store, cond)
    case None => Null
    case Some(i) => UserJson(store[i], projection)
  }

  // ---------------------------------------------------------------------------
  // POST /users/authenticate

  /** The login body after its Joi gate: both fields are required strings. */
  datatype Credentials = Credentials(username: string, password: string)

  /** The claims a login token carries: `userId, role, username, firstname,
      lastname`; an absent last name is `undefined`. */
  function LoginClaims(u: User): (claims: Claims)
    ensures claims.Keys == {"userId", "role", "username", "firstname", "lastname"}
    ensures claims["userId"] == Str(u.id) && claims["username"] == Str(u.username)
    ensures claims["role"] == Str(u.role) && claims["firstname"] == Str(u.firstname)
    ensures claims["lastname"] == (if u.lastname.Some? then Str(u.lastname.value) else Undefined)
  {
    map[
      "userId" := Str(u.id), "role" := Str(u.role), "username" := Str(u.username),
      "firstname" := Str(u.firstname),
      "lastname" := if u.lastname.Some? then Str(u.lastname.value) else Undefined]
  }

  /** The login handler. Unknown user and wrong password are both 401 with no
      token and no write; success issues both tokens from the user's claims,
      stores the refresh token on the record, and answers 200 with both. */
  function Login(c: Codec, crypto: Crypto, store: seq<User>, body: Credentials, usernameIndex: bool): (r: Outcome)
    ensures FindFirst(store, ByUsername(body.username)).None? ==>
              r == Outcome(ResultOnly(401, "ERROR: user does not exists"), store)
    ensures FindFirst(store, ByUsername(body.username)).Some? ==>
              var u := store[FindFirst(store, ByUsername(body.username)).value];
              && (!crypto.compare(body.password, u.password) ==>
                    r == Outcome(ResultOnly(401, "ERROR: failed to authenticate"), store))
              && (crypto.compare(body.password, u.password) ==>
                    && r.response.status == 200
                    && r.response.body == Obj(map[
                         "result" := Str("ok"),
                         "accessToken" := Str(c.sign(LoginClaims(u), true)),
                         "refreshToken" := Str(c.sign(LoginClaims(u), false))])
                    && r.store == UpdateOne(store, ById(u.id), RefreshTokenUpdate(c.sign(LoginClaims(u), false)), usernameIndex).value)
  {
    match FindFirst(store, ByUsername(body.username))
    case None => Outcome(ResultOnly(StatusUnauthorized, UserNotFoundMessage), store)
    case Some(i) =>
      var user := store[i];
      if crypto.compare(body.password, user.password) == false then
        Outcome(ResultOnly(StatusUnauthorized, BadPasswordMessage), store)
      else
        var jwtData := LoginClaims(user);
        var accessToken := GenerateToken(c, Obj(jwtData), Str(AccessTokenKind)).value;
        var refreshToken := GenerateToken(c, Obj(jwtData), Str(RefreshTokenKind)).value;
        var stored := UpdateOne(store, ById(user.id), RefreshTokenUpdate(refreshToken), usernameIndex).value;
        Outcome(
          Response(StatusOk, Obj(map["result" := Str("ok"), "accessToken" := Str(accessToken),
                                     "refreshToken" := Str(refreshToken)])),
          stored)
  }

  /** The update document `{refreshToken}`. */
  function RefreshTokenUpdate(token: string): (upd: Update)
    ensures upd.username.None?
  {
    Update(None, None, None, None, None, Some(token))
  }

  /** The authenticate route: the body gate, then the handler. */
  function AuthenticateRoute(c: Codec, crypto: Crypto, schema: Credentials -> SchemaVerdict,
                             store: seq<User>, body: Credentials, usernameIndex: bool): (r: Outcome)
    ensures ValidateObject(schema, body) != [] ==> r.store == store && r.response.status == 400
    ensures ValidateObject(schema, body) == [] ==> r == Login(c, crypto, store, body, usernameIndex)
  {
    var gate := ValidateHTTPBody(schema, body);
    var last := gate[|gate| - 1];
    if last.Send? then Outcome(last.response, store) else Login(c, crypto, store, body, usernameIndex)
  }

  /** A failed login issues no token and writes nothing. */
  lemma {:induction false} LoginFailureIssuesNothing(c: Codec, crypto: Crypto, store: seq<User>, body: Credentials, usernameIndex: bool)
    requires Login(c, crypto, store, body, usernameIndex).response.status != 200
    ensures Login(c, crypto, store, body, usernameIndex).store == store
    ensures Login(c, crypto, store, body, usernameIndex).response.status == 401
    ensures Login(c, crypto, store, body, usernameIndex).response.body.Obj?
    ensures "accessToken" !in Login(c, crypto, store, body, usernameIndex).response.body.fields
    ensures "refreshToken" !in Login(c, crypto, store, body, usernameIndex).response.body.fields
  {
  }

  /** A successful login in a collection with unique ids changes only the
      logged-in user's `refreshToken`, to the refresh token it answers with. */
  lemma {:induction false} LoginWritesOnlyRefreshToken(c: Codec, crypto: Crypto, store: seq<User>, body: Credentials, usernameIndex: bool)
    requires UniqueIds(store)
    requires Login(c, crypto, store, body, usernameIndex).response.status == 200
    ensures FindFirst(store, ByUsername(body.username)).Some?
    ensures var i := FindFirst(store, ByUsername(body.username)).value;
            var r := Login(c, crypto, store, body, usernameIndex);
            && |r.store| == |store|
            && r.store[i] == store[i].(refreshToken := r.response.body.fields["refreshToken"].s)
            && forall j :: 0 <= j < |store| && j != i ==> r.store[j] == store[j]
  {
    var i := FindFirst(store, ByUsername(body.username)).value;
    FindOwnId(store, i);
  }

  /** With a sound codec the login tokens verify back to the user's claims: the
      access token with an expiry, the refresh token without one. */
  lemma {:induction false} LoginTokensVerify(c: Codec, crypto: Crypto, store: seq<User>, body: Credentials, usernameIndex: bool)
    requires Sound(c)
    requires Login(c, crypto, store, body, usernameIndex).response.status == 200
    ensures FindFirst(store, ByUsername(body.username)).Some?
    ensures var u := store[FindFirst(store, ByUsername(body.username)).value];
            var fields := Login(c, crypto, store, body, usernameIndex).response.body.fields;
            && VerifyToken(c, Some(fields["accessToken"].s)).Some?
            && Carries(LoginClaims(u), VerifyToken(c, Some(fields["accessToken"].s)).value, true)
            && VerifyToken(c, Some(fields["refreshToken"].s)).Some?
            && Carries(LoginClaims(u), VerifyToken(c, Some(fields["refreshToken"].s)).value, false)
  {
    var u := store[FindFirst(store, ByUsername(body.username)).value];
    SignThenDecode(c, LoginClaims(u), true);
    SignThenDecode(c, LoginClaims(u), false);
  }

  /** The renewal write and the login claims disagree on the identity claim:
      login tokens carry `userId`, the middleware filters on the payload's
      `_id`. So renewing with the refresh token login issues for a user (the
      token `Login`'s contract names) writes with the filter `{_id: undefined}`. */
  lemma {:induction false} RenewalFilterMissesLoginTokens(c: Codec, u: User, req: Request)
    requires Sound(c)
    requires req.refreshHeader == Some(c.sign(LoginClaims(u), false))
    requires AccessRejected(c, req.accessHeader)
    requires req.originalUrl !in UnauthenticatedUrls
    ensures ExtractUserFromToken(c, req)[0].StoreUpdateOne?
    ensures ExtractUserFromToken(c, req)[0].filter == map["_id" := Undefined]
  {
    SignThenDecode(c, LoginClaims(u), false);
    var user := c.decode(c.sign(LoginClaims(u), false)).value;
    RenewalFilterOfClaims(c, req, LoginClaims(u), user);
  }

  /** Renewal from a payload without `_id` filters on `_id: undefined`. */
  lemma {:induction false} RenewalFilterOfClaims(c: Codec, req: Request, claims: Claims, user: Claims)
    requires AccessRejected(c, req.accessHeader)
    requires req.originalUrl !in UnauthenticatedUrls
    requires req.refreshHeader.Some? && req.refreshHeader.value != ""
    requires c.decode(req.refreshHeader.value) == Some(user)
    requires Carries(claims, user, false)
    requires "_id" !in claims && "exp" !in claims
    ensures ExtractUserFromToken(c, req)[0] == StoreUpdateOne(map["_id" := Undefined], map["newRefreshToken" := Str(c.sign(user, false))])
  {
    assert "_id" !in RegisteredClaims;
    assert "exp" !in user;
    RefreshRotates(c, req, user);
  }

  // ---------------------------------------------------------------------------
  // The `:userIdOrUsername` parameter.

  /** `isMongoId(p) ? {_id: p} : {username: p}`, shared by update, delete and get-one. */
  function Resolve(isMongoId: string -> bool, param: string): (cond: Condition)
    ensures isMongoId(param) <==> cond == ById(param)
    ensures !isMongoId(param) <==> cond == ByUsername(param)
  {
    if isMongoId(param) then ById(param) else ByUsername(param)
  }

  // ---------------------------------------------------------------------------
  // PATCH /users/:userIdOrUsername

  /** The update body: any of the five editable fields, as strings. */
  datatype UserPatch = UserPatch(
    firstname: Option<string>,
    lastname: Option<string>,
    username: Option<string>,
    password: Option<string>,
    role: Option<string>)

  /** `{...req.body}` with the password replaced by its hash when it is present
      and non-empty (an empty password is written as given). */
  function NewUserData(crypto: Crypto, body: UserPatch): (upd: Update)
    ensures upd.refreshToken.None?
    ensures upd.username == body.username && upd.firstname == body.firstname
    ensures upd.lastname == body.lastname && upd.role == body.role
    ensures body.password.None? ==> upd.password.None?
    ensures body.password.Some? && body.password.value != "" ==> upd.password == Some(crypto.hash(body.password.value))
    ensures body.password == Some("") ==> upd.password == Some("")
  {
    var password :=
      if body.password.Some? && Truthy(Str(body.password.value)) && |body.password.value| > 0
      then Some(crypto.hash(body.password.value))
      else body.password;
    Update(body.firstname, body.lastname, body.username, password, body.role, None)
  }

  /** The update handler: validation errors are 400 before anything else; an
      empty identifier is 400; a username collision under the username index
      is 500; otherwise the fields are written and the record is read back, by
      the same filter, as JSON. */
  function UpdateUser(crypto: Crypto, isMongoId: string -> bool, schema: UserPatch -> SchemaVerdict,
                      store: seq<User>, param: string, body: UserPatch, usernameIndex: bool): (r: Outcome)
    ensures ValidateObject(schema, body) != [] ==>
              r == Outcome(Response(400, Obj(map["error" := StrArray(ValidateObject(schema, body))])), store)
    ensures ValidateObject(schema, body) == [] && param == "" ==>
              r == Outcome(Response(400, ErrorBody("ERROR: userId must be specified")), store)
    ensures ValidateObject(schema, body) == [] && param != "" ==>
              (r.response.status == 200 <==>
                 UpdateOne(store, Resolve(isMongoId, param), NewUserData(crypto, body), usernameIndex).Ok?)
    ensures ValidateObject(schema, body) == [] && param != "" &&
            UpdateOne(store, Resolve(isMongoId, param), NewUserData(crypto, body), usernameIndex).Err? ==>
              r == Outcome(ServerError(), store)
    ensures r.response.status != 200 ==> r.store == store
    ensures r.response.status == 200 ==>
              && UpdateOne(store, Resolve(isMongoId, param), NewUserData(crypto, body), usernameIndex) == Ok(r.store)
              && r.response.body == Obj(map["result" := Str("ok"),
                   "user" := FindOneJson(r.store, Resolve(isMongoId, param), PublicFieldsWithTimestamps)])
  {
    var valErrors := ValidateObject(schema, body);
    if |valErrors| > 0 then Outcome(Response(StatusBadRequest, Obj(map["error" := StrArray(valErrors)])), store)
    else if param == "" then Outcome(Response(StatusBadRequest, ErrorBody(MissingIdMessage)), store)
    else
      var newUserData := NewUserData(crypto, body);
      var conditions := Resolve(isMongoId, param);
      match UpdateOne(store, conditions, newUserData, usernameIndex)
      case Err(_) => Outcome(ServerError(), store)
      case Ok(updated) =>
        var updatedUser := FindOneJson(updated, conditions, PublicFieldsWithTimestamps);
        Outcome(Response(StatusOk, Obj(map["result" := Str("ok"), "user" := updatedUser])), updated)
  }

  /** The password a patched record ends up with. */
  lemma {:induction false} PatchedPassword(crypto: Crypto, u: User, body: UserPatch)
    ensures Apply(u, NewUserData(crypto, body)).password ==
              match body.password
              case None => u.password
              case Some(p) => if p == "" then "" else crypto.hash(p)
  {
  }

  /** The password rule of an update the collection accepts: it answers 200,
      and the matched record's password
      becomes the hash of a non-empty new password, stays as it was when none
      is given, and never holds a non-empty plaintext; every other record is
      unchanged. */
  lemma {:induction false} UpdatePasswordRule(crypto: Crypto, isMongoId: string -> bool, schema: UserPatch -> SchemaVerdict,
                           store: seq<User>, param: string, body: UserPatch, usernameIndex: bool)
    requires ValidateObject(schema, body) == [] && param != ""
    requires FindFirst(store, Resolve(isMongoId, param)).Some?
    requires UpdateOne(store, Resolve(isMongoId, param), NewUserData(crypto, body), usernameIndex).Ok?
    ensures UpdateUser(crypto, isMongoId, schema, store, param, body, usernameIndex).response.status == 200
    ensures var i := FindFirst(store, Resolve(isMongoId, param)).value;
            var r := UpdateUser(crypto, isMongoId, schema, store, param, body, usernameIndex).store;
            && r[i].password == (match body.password
                                 case None => store[i].password
                                 case Some(p) => if p == "" then "" else crypto.hash(p))
            && forall j :: 0 <= j < |store| && j != i ==> r[j] == store[j]
  {
    var cond := Resolve(isMongoId, param);
    var i := FindFirst(store, cond).value;
    var r := UpdateUser(crypto, isMongoId, schema, store, param, body, usernameIndex);
    assert UpdateOne(store, cond, NewUserData(crypto, body), usernameIndex) == Ok(r.store);
    PatchedPassword(crypto, store[i], body);
  }

  /** A rejected body never reaches the collection, whatever the identifier. */
  lemma {:induction false} UpdateValidationFirst(crypto: Crypto, isMongoId: string -> bool, schema: UserPatch -> SchemaVerdict,
                              store: seq<User>, param: string, body: UserPatch, usernameIndex: bool)
    requires schema(body).SchemaError? && schema(body).details != []
    ensures UpdateUser(crypto, isMongoId, schema, store, param, body, usernameIndex).response.status == 400
    ensures UpdateUser(crypto, isMongoId, schema, store, param, body, usernameIndex).store == store
  {
  }

  // ---------------------------------------------------------------------------
  // DELETE /users/:userIdOrUsername

  /** The delete handler: removes the first record matching the identifier and
      answers `{result: 'ok'}` whether or not one matched. */
  function DeleteUser(isMongoId: string -> bool, store: seq<User>, param: string): (r: Outcome)
    ensures param == "" ==> r == Outcome(Response(400, ErrorBody("ERROR: userId must be specified")), store)
    ensures param != "" ==> r.response == ResultOnly(200, "ok")
    ensures param != "" ==>
              |r.store| == |store| - (if FindFirst(store, Resolve(isMongoId, param)).Some? then 1 else 0)
    ensures forall u :: u in r.store ==> u in store
  {
    if param == "" then Outcome(Response(StatusBadRequest, ErrorBody(MissingIdMessage)), store)
    else
      var conditions := Resolve(isMongoId, param);
      var remaining := DeleteOne(store, conditions);
      assert forall u :: u in remaining ==> u in store by {
        forall u | u in remaining ensures u in store {
          var k :| 0 <= k < |remaining| && remaining[k] == u;
          if FindFirst(store, conditions).Some? && k >= FindFirst(store, conditions).value {
            assert remaining[k] == store[k + 1];
          }
        }
      }
      Outcome(ResultOnly(StatusOk, "ok"), remaining)
  }

  /** A delete keeps the indexes in force unique. After it, no record matches
      an ObjectId identifier, nor, under the username index, a username. */
  lemma {:induction false} DeleteRemovesTarget(isMongoId: string -> bool, store: seq<User>, param: string, usernameIndex: bool)
    requires WellFormed(store, usernameIndex)
    requires param != ""
    ensures isMongoId(param) || usernameIndex ==>
              FindFirst(DeleteUser(isMongoId, store, param).store, Resolve(isMongoId, param)).None?
    ensures WellFormed(DeleteUser(isMongoId, store, param).store, usernameIndex)
  {
    DeleteOnePreservesWellFormed(store, Resolve(isMongoId, param), usernameIndex);
  }

  // ---------------------------------------------------------------------------
  // GET /users/:userIdOrUsername

  /** The get-one handler: reads only, answers 200 with the projected record,
      or with `user: null` when nothing matches. */
  function GetOneUser(isMongoId: string -> bool, store: seq<User>, param: string): (r: Outcome)
    ensures r.store == store
    ensures param == "" ==> r.response == Response(400, ErrorBody("ERROR: userId must be specified"))
    ensures param != "" ==>
              && r.response.status == 200
              && r.response.body.Obj?
              && r.response.body.fields.Keys == {"result", "user"}
              && (r.response.body.fields["user"] == Null <==> FindFirst(store, Resolve(isMongoId, param)).None?)
  {
    if param == "" then Outcome(Response(StatusBadRequest, ErrorBody(MissingIdMessage)), store)
    else
      var conditions := Resolve(isMongoId, param);
      var user := FindOneJson(store, conditions, PublicFields);
      Outcome(Response(StatusOk, Obj(map["result" := Str("ok"), "user" := user])), store)
  }

  /** The same identifier selects the same record in update, delete and get-one. */
  lemma {:induction false} SameIdentifierSameRecord(crypto: Crypto, isMongoId: string -> bool, schema: UserPatch -> SchemaVerdict,
                                 store: seq<User>, param: string, body: UserPatch, usernameIndex: bool)
    requires param != ""
    requires FindFirst(store, Resolve(isMongoId, param)).Some?
    ensures var i := FindFirst(store, Resolve(isMongoId, param)).value;
            && GetOneUser(isMongoId, store, param).response.body.fields["user"] == UserJson(store[i], PublicFields)
            && DeleteUser(isMongoId, store, param).store == store[..i] + store[i + 1..]
            && (UpdateUser(crypto, isMongoId, schema, store, param, body, usernameIndex).response.status == 200 ==>
                  UpdateUser(crypto, isMongoId, schema, store, param, body, usernameIndex).store[i] ==
                    Apply(store[i], NewUserData(crypto, body)))
  {
  }

  // ---------------------------------------------------------------------------
  // GET /users/

  /** The options handed to `User.paginate`. */
  datatype PageOptions = PageOptions(
    limit: int,
    page: JsValue,
    sortField: string,
    descending: bool,
    projection: set<string>,
    pagination: bool)

  /** The list handler's options for the `pageNum` query parameter. */
  function ListOptions(pageNum: Option<string>): (o: PageOptions)
    ensures o.limit == 10
    ensures o.sortField == "createdAt" && o.descending
    ensures o.projection == PublicFields
    ensures !o.pagination <==> ParseIntOf(pageNum) == Some(-1)
    ensures o.page == (if pageNum.Some? && pageNum.value != "" then Str(pageNum.value) else Num(1))
  {
    var pageParam := if pageNum.Some? then Str(pageNum.value) else Undefined;
    PageOptions(
      10,
      if Truthy(pageParam) then pageParam else Num(1),
      "createdAt",
      true,
      PublicFields,
      ParseIntOf(pageNum) != Some(-1))
  }

  /** Pagination is switched off by `-1` and stays on when the parameter is absent. */
  lemma {:induction false} ListOptionsExamples()
    ensures !ListOptions(Some("-1")).pagination
    ensures ListOptions(None).pagination && ListOptions(None).page == Num(1)
    ensures ListOptions(Some("")).page == Num(1)
  {
    MinusOneParses("", "");
    assert "" + "-1" + "" == "-1";
    UndefinedParsesToNaN();
  }

  // ---------------------------------------------------------------------------
  // POST /users/

  /** The create body after its Joi gate: all fields but `lastname` required. */
  datatype NewUser = NewUser(firstname: string, lastname: Option<string>, username: string, password: string, role: string)

  /** The create handler: the record is stored with the password hashed; the
      fresh `_id` and the creation time come from the database. A taken `_id`,
      or a taken username under the username index, is 500. */
  function CreateUser(crypto: Crypto, store: seq<User>, body: NewUser, newId: string, now: int,
                      usernameIndex: bool): (r: Outcome)
    ensures var rec := User(newId, body.firstname, body.lastname, body.username,
                            crypto.hash(body.password), body.role, "", now);
            && (r.response.status == 200 <==> InsertOne(store, rec, usernameIndex).Ok?)
            && (r.response.status == 200 ==> r.store == store + [rec])
    ensures r.response.status == 200 || r == Outcome(ServerError(), store)
    ensures r.response.status == 200 ==>
              && |r.store| == |store| + 1
              && r.store[..|store|] == store
              && var created := r.store[|store|];
                 && created.password == crypto.hash(body.password)
                 && created.username == body.username
                 && created.refreshToken == ""
                 && r.response.body == Obj(map["result" := Str("ok"), "user" := UserJson(created, AllFields)])
  {
    var newUserData := User(newId, body.firstname, body.lastname, body.username,
                            crypto.hash(body.password), body.role, "", now);
    match InsertOne(store, newUserData, usernameIndex)
    case Err(_) => Outcome(ServerError(), store)
    case Ok(stored) =>
      Outcome(Response(StatusOk, Obj(map["result" := Str("ok"), "user" := UserJson(newUserData, AllFields)])), stored)
  }

  /** The create route: the body gate, then the handler. */
  function CreateRoute(crypto: Crypto, schema: NewUser -> SchemaVerdict, store: seq<User>,
                       body: NewUser, newId: string, now: int, usernameIndex: bool): (r: Outcome)
    ensures ValidateObject(schema, body) != [] ==> r.store == store && r.response.status == 400
    ensures ValidateObject(schema, body) == [] ==> r == CreateUser(crypto, store, body, newId, now, usernameIndex)
  {
    var gate := ValidateHTTPBody(schema, body);
    var last := gate[|gate| - 1];
    if last.Send? then Outcome(last.response, store) else CreateUser(crypto, store, body, newId, now, usernameIndex)
  }

  // ---------------------------------------------------------------------------
  // The unique indexes hold across every handler.

  lemma {:induction false} LoginPreservesWellFormed(c: Codec, crypto: Crypto, store: seq<User>, body: Credentials, usernameIndex: bool)
    requires WellFormed(store, usernameIndex)
    ensures WellFormed(Login(c, crypto, store, body, usernameIndex).store, usernameIndex)
  {
    var r := Login(c, crypto, store, body, usernameIndex);
    if r.store != store {
      var u := store[FindFirst(store, ByUsername(body.username)).value];
      UpdateOnePreservesWellFormed(store, ById(u.id), RefreshTokenUpdate(c.sign(LoginClaims(u), false)), usernameIndex);
    }
  }

  lemma {:induction false} UpdatePreservesWellFormed(crypto: Crypto, isMongoId: string -> bool, schema: UserPatch -> SchemaVerdict,
                                  store: seq<User>, param: string, body: UserPatch, usernameIndex: bool)
    requires WellFormed(store, usernameIndex)
    ensures WellFormed(UpdateUser(crypto, isMongoId, schema, store, param, body, usernameIndex).store, usernameIndex)
  {
    var r := UpdateUser(crypto, isMongoId, schema, store, param, body, usernameIndex);
    if r.response.status == 200 {
      UpdateOnePreservesWellFormed(store, Resolve(isMongoId, param), NewUserData(crypto, body), usernameIndex);
    }
  }

  lemma {:induction false} CreatePreservesWellFormed(crypto: Crypto, store: seq<User>, body: NewUser, newId: string, now: int,
                                  usernameIndex: bool)
    requires WellFormed(store, usernameIndex)
    ensures WellFormed(CreateUser(crypto, store, body, newId, now, usernameIndex).store, usernameIndex)
  {
    var newUserData := User(newId, body.firstname, body.lastname, body.username,
                            crypto.hash(body.password), body.role, "", now);
    if InsertOne(store, newUserData, usernameIndex).Ok? {
      InsertOnePreservesWellFormed(store, newUserData, usernameIndex);
    }
  }
}

=== FILE: utilities.dfy ===
/** The token and validation helpers of the utilities module: token issuance
    with its argument checks, total token verification, two-token renewal, and
    the adapter that turns a schema's verdict into a list of messages. */
module Utilities {
  import opened Wrappers
  import opened Js
  import opened Jwt

  /** The two token kinds `generateToken` accepts, spelled as the callers spell them. */
  const AccessTokenKind: string := "accessToken"
  const RefreshTokenKind: string := "refreshToken"

  /** The errors the utilities throw, one per exported Error constant, and the
      error jsonwebtoken's `sign` throws for an access token whose payload
      already carries `exp`. */
  datatype TokenError =
    | PayloadNotSpecified
    | TypeNotSpecified
    | PayloadInvalidDataType
    | TypeInvalidDataType
    | TypeInvalidValue
    | NewTokensPayloadNotSpecified
    | ExpiresInWithExp

  /** The message each error is constructed with. */
  function Message(e: TokenError): string
  {
    match e
    case PayloadNotSpecified => "ERROR: 1st parameter 'payload' is not specified"
    case TypeNotSpecified => "ERROR: 2nd parameter 'type' is not specified"
    case PayloadInvalidDataType => "ERROR: 1st parameter 'payload' must be an object"
    case TypeInvalidDataType => "ERROR: 2nd parameter 'type' must be string"
    case TypeInvalidValue => "ERROR: 2nd parameter 'type' value must `accessToken` or `refreshToken`"
    case NewTokensPayloadNotSpecified => "ERROR: 1st parameter 'refreshToken' not specified!"
    case ExpiresInWithExp => "Bad \"options.expiresIn\" option the payload already has an \"exp\" property."
  }

  /** `typeof payload.exp !== 'undefined'`: jsonwebtoken refuses to sign such a
      payload with an `expiresIn` option, and the refusal rejects `generateToken`. */
  predicate HasExp(fields: Claims)
  {
    Prop(fields, "exp") != Undefined
  }

  /** `generateToken(payload, type)`. The checks run in the source's order:
      falsy payload, then falsy type, then payload shape, then type's data type,
      then type's value. Access tokens carry an expiry, refresh tokens do not;
      an access token for a payload that already has `exp` is refused by the
      signing library. */
  function GenerateToken(c: Codec, payload: JsValue, kind: JsValue): (r: Result<string, TokenError>)
    ensures r.Ok? <==> payload.Obj? &&
                       ((kind == Str(AccessTokenKind) && !HasExp(payload.fields)) || kind == Str(RefreshTokenKind))
    ensures r.Ok? ==> r.value == c.sign(payload.fields, kind == Str(AccessTokenKind))
    ensures !Truthy(payload) ==> r == Err(PayloadNotSpecified)
    ensures Truthy(payload) && !Truthy(kind) ==> r == Err(TypeNotSpecified)
    ensures Truthy(payload) && Truthy(kind) && !payload.Obj? ==> r == Err(PayloadInvalidDataType)
    ensures payload.Obj? && Truthy(kind) && !kind.Str? ==> r == Err(TypeInvalidDataType)
    ensures payload.Obj? && kind.Str? && kind.s !in {"", AccessTokenKind, RefreshTokenKind} ==>
              r == Err(TypeInvalidValue)
    ensures payload.Obj? && kind == Str(AccessTokenKind) && HasExp(payload.fields) ==> r == Err(ExpiresInWithExp)
  {
    if !Truthy(payload) || payload.Undefined? then Err(PayloadNotSpecified)
    else if !Truthy(kind) || kind == Str("") then Err(TypeNotSpecified)
    else if TypeOf(payload) != "object" || IsArray(payload) || payload.Null? then Err(PayloadInvalidDataType)
    else if TypeOf(kind) != "string" then Err(TypeInvalidDataType)
    else if kind == Str(AccessTokenKind) then
      if HasExp(payload.fields) then Err(ExpiresInWithExp) else Ok(c.sign(payload.fields, true))
    else if kind == Str(RefreshTokenKind) then Ok(c.sign(payload.fields, false))
    else Err(TypeInvalidValue)
  }

  /** `verifyToken(token)`: never throws. A missing or empty token, or one the
      codec rejects, gives null; otherwise the decoded claims. */
  function VerifyToken(c: Codec, token: Option<string>): (r: Option<Claims>)
    ensures r.Some? <==> token.Some? && token.value != "" && c.decode(token.value).Some?
    ensures r.Some? ==> r == c.decode(token.value)
  {
    match token
    // validator.isEmpty(undefined) throws a TypeError, which the catch turns into null.
    case None => None
    case Some(t) =>
      if |t| == 0 || !Truthy(Str(t)) then None
      else
        match c.decode(t)
        case None => None
        case Some(claims) => if !Truthy(Obj(claims)) then None else Some(claims)
  }

  /** The result of `generateNewTokensIfExpired`. */
  datatype TokenPair = TokenPair(newRefreshToken: string, newAccessToken: string)

  /** `generateNewTokensIfExpired(payload)`: both tokens are issued from the same
      payload, the refresh token first and without expiry, the access token with
      one. Errors of the inner `generateToken` calls propagate: a payload that
      already has `exp` gets its refresh token, then fails on the access token. */
  function GenerateNewTokensIfExpired(c: Codec, payload: JsValue): (r: Result<TokenPair, TokenError>)
    ensures !Truthy(payload) ==> r == Err(NewTokensPayloadNotSpecified)
    ensures Truthy(payload) && !payload.Obj? ==> r == Err(PayloadInvalidDataType)
    ensures payload.Obj? && HasExp(payload.fields) ==> r == Err(ExpiresInWithExp)
    ensures payload.Obj? && !HasExp(payload.fields) ==>
              r == Ok(TokenPair(c.sign(payload.fields, false), c.sign(payload.fields, true)))
  {
    if !Truthy(payload) || payload.Null? then Err(NewTokensPayloadNotSpecified)
    else
      match GenerateToken(c, payload, Str(RefreshTokenKind))
      case Err(e) => Err(e)
      case Ok(newRefreshToken) =>
        match GenerateToken(c, payload, Str(AccessTokenKind))
        case Err(e) => Err(e)
        case Ok(newAccessToken) => Ok(TokenPair(newRefreshToken, newAccessToken))
  }

  /** One entry of a schema's `error.details`. */
  datatype ErrorDetail = ErrorDetail(message: string, path: seq<string>)

  /** What `schema.validate(input)` reports: no `error`, or an error with details. */
  datatype SchemaVerdict = NoError | SchemaError(details: seq<ErrorDetail>)

  /** The messages of `details`, in order. */
  function Messages(details: seq<ErrorDetail>): (r: seq<string>)
    ensures |r| == |details|
    ensures forall i :: 0 <= i < |details| ==> r[i] == details[i].message
  {
    if |details| == 0 then [] else [details[0].message] + Messages(details[1..])
  }

  /** `validateObject(schema, input)`: the list of error messages, empty exactly
      when the schema reports no error (or an error without details). */
  function ValidateObject<T>(schema: T -> SchemaVerdict, input: T): (r: seq<string>)
    ensures schema(input).NoError? ==> r == []
    ensures schema(input).SchemaError? ==>
              |r| == |schema(input).details| &&
              forall i :: 0 <= i < |r| ==> r[i] == schema(input).details[i].message
  {
    match schema(input)
    case NoError => []
    case SchemaError(details) => Messages(details)
  }

  // ---------------------------------------------------------------------------
  // Properties relating the operations to the codec and to each other.

  /** Error precedence: a falsy payload is reported first, whatever the type
      argument, including when both arguments are missing. */
  lemma {:induction false} FalsyPayloadReportedFirst(c: Codec, payload: JsValue, kind: JsValue)
    requires payload in {Undefined, Null, Num(0), Str(""), Bool(false)}
    ensures GenerateToken(c, payload, kind) == Err(PayloadNotSpecified)
  {
  }

  /** The missing-type check precedes the payload-shape check: an array payload
      with no type is a missing type, with a type it is a bad payload. */
  lemma {:induction false} MissingTypeBeforePayloadShape(c: Codec)
    ensures GenerateToken(c, Arr([]), Undefined) == Err(TypeNotSpecified)
    ensures GenerateToken(c, Arr([]), Str(AccessTokenKind)) == Err(PayloadInvalidDataType)
    ensures GenerateToken(c, Obj(map[]), Num(10)) == Err(TypeInvalidDataType)
    ensures GenerateToken(c, Obj(map[]), Str("not_the_expected_input_string_value")) == Err(TypeInvalidValue)
  {
  }

  /** Issuing then verifying an access token gives back every caller claim and
      a numeric expiry; the token is issued exactly when the claims carry no
      `exp` of their own. */
  lemma {:induction false} AccessTokenRoundTrip(c: Codec, claims: Claims)
    requires Sound(c)
    ensures GenerateToken(c, Obj(claims), Str(AccessTokenKind)).Ok? <==> !HasExp(claims)
    ensures GenerateToken(c, Obj(claims), Str(AccessTokenKind)).Ok? ==>
            var t := GenerateToken(c, Obj(claims), Str(AccessTokenKind)).value;
            VerifyToken(c, Some(t)).Some? && Carries(claims, VerifyToken(c, Some(t)).value, true)
  {
    SignThenDecode(c, claims, true);
  }

  /** Issuing then verifying a refresh token gives back every caller claim, and
      no expiry when the claims had none. */
  lemma {:induction false} RefreshTokenRoundTrip(c: Codec, claims: Claims)
    requires Sound(c)
    ensures GenerateToken(c, Obj(claims), Str(RefreshTokenKind)).Ok?
    ensures var t := GenerateToken(c, Obj(claims), Str(RefreshTokenKind)).value;
            VerifyToken(c, Some(t)).Some? && Carries(claims, VerifyToken(c, Some(t)).value, false)
  {
    SignThenDecode(c, claims, false);
  }

  /** Renewal succeeds exactly for claims without `exp`. It then issues the same
      two tokens `generateToken` would, and both verify back to the payload's
      claims: the access token with an expiry, the refresh token without. */
  lemma {:induction false} RenewalRoundTrip(c: Codec, claims: Claims)
    requires Sound(c)
    ensures GenerateNewTokensIfExpired(c, Obj(claims)).Ok? <==> !HasExp(claims)
    ensures GenerateNewTokensIfExpired(c, Obj(claims)).Ok? ==>
            var pair := GenerateNewTokensIfExpired(c, Obj(claims)).value;
            && GenerateToken(c, Obj(claims), Str(AccessTokenKind)) == Ok(pair.newAccessToken)
            && GenerateToken(c, Obj(claims), Str(RefreshTokenKind)) == Ok(pair.newRefreshToken)
            && VerifyToken(c, Some(pair.newAccessToken)).Some?
            && Carries(claims, VerifyToken(c, Some(pair.newAccessToken)).value, true)
            && VerifyToken(c, Some(pair.newRefreshToken)).Some?
            && Carries(claims, VerifyToken(c, Some(pair.newRefreshToken)).value, false)
  {
    SignThenDecode(c, claims, true);
    SignThenDecode(c, claims, false);
  }

  /** Every access token decodes with an `exp`, so it can never be renewed:
      handed back as a refresh payload it makes renewal fail. */
  lemma {:induction false} AccessTokenPayloadNotRenewable(c: Codec, claims: Claims)
    requires Sound(c)
    ensures var t := GenerateToken(c, Obj(claims), Str(AccessTokenKind));
            t.Ok? ==>
              && VerifyToken(c, Some(t.value)).Some?
              && GenerateNewTokensIfExpired(c, Obj(VerifyToken(c, Some(t.value)).value)) == Err(ExpiresInWithExp)
  {
    SignThenDecode(c, claims, true);
  }

  /** `validateObject` returns the empty list exactly when the schema reports no
      error detail. */
  lemma {:induction false} ValidateObjectEmptyIff<T>(schema: T -> SchemaVerdict, input: T)
    ensures ValidateObject(schema, input) == [] <==>
              schema(input).NoError? || schema(input).details == []
  {
  }
}

=== FILE: wrappers.dfy ===
/** Option and Result, the two failure-carrying shapes the rest of the model uses
    in place of JavaScript's `null` returns and thrown errors. */
module Wrappers {

  /** A value that may be absent: `null`/`undefined` on the JavaScript side. */
  datatype Option<+T> = None | Some(value: T)

  /** The outcome of an operation that either returns a value or throws an error. */
  datatype Result<+T, +E> = Ok(value: T) | Err(error: E)
}
